=== FILE: README.md ===
# cr-SMPS core, modelled in Dafny

cr-SMPS reads the CSV exports of a scanning mobility particle sizer (SMPS).
The model covers four parts of the library:

- **The reader** (`Reader`) turns one export into an `SMPSData` record:
  - keeps the rows whose two status columns read "Normal Scan";
  - parses the sample dates with an ordered chain of day-first formats;
  - tags the requested time zone;
  - derives the start time, end time and sample count;
  - finds the diameter columns from the sentinels on line 52;
  - narrows them to the sampled size range and splits off the sample metadata table;
  - merges the 45-line key/value header into the metadata.

  It also loads every `*SMPS*.csv` of a directory, in sorted order, into a list of records, and wraps such a list in a dataset.
- **The record** (`SmpsRecord`) is the `SMPSData` class: its fields, `len()`, and the lines `print_metadata` prints.
- **The dataset** (`Dataset`) is the `SMPSDataset` class:
  - an ordered list of records with `len()`, Python indexing and append;
  - `sort_by_time`, a stable sort by start time followed by a scan that reports every adjacent pair whose times overlap;
  - the subtitle `plot_heatmap` puts on the figure.
- **The heatmap** (`Heatmap`) covers the decisions of `_plot_heatmap`:
  - how the `time_range` selector becomes an x-axis window, a caption, a file name and a row filter;
  - which records are drawn;
  - how concentrations below 10 are raised to 10;
  - how fine the time ticks are;
  - where the figure is saved.

Shared building blocks:
- `Common`: Option/Result, the Python exceptions raised, `list.index`, slicing, comprehension filters.
- `Sorting`: insertion sort, with its permutation, order and stability properties.
- `Calendar`: instants, days, the proleptic Gregorian calendar, and the strftime texts.

Modelling conventions:
- An instant is a wall-clock reading in microseconds since 1970-01-01 00:00:00. NaT is `None`.
- A day is `t / 86400000000`, with floor division.
- Column labels and cells are strings.
- Diameters and sizes are exact reals.
- The CSV file is given as what pandas reads from it: the header block, line 52, the column labels and the data rows.
- These library calls are parameters of the model:
  - the pandas date parsers;
  - `float()` of a label;
  - the zone database;
  - the directory listing;
  - the file reader.

## Model

| member | source | states |
|---|---|---|
| Reader.KeepNormal | src/cr_smps/io/reader.py:49-52 | A missing "Detector Status" or "Classifier Errors" column raises KeyError, tested in that order. The filter succeeds exactly when both columns exist, and keeps only rows of the file. |
| Reader.KeepNormalExact | src/cr_smps/io/reader.py:49-52 | Exactly the rows whose two status cells both read "Normal Scan" are kept, in their original order. The kept rows are the rows at the increasing list of passing positions. |
| Reader.TryFormats | src/cr_smps/io/reader.py:67-76 | The result is None exactly when no format parses. Otherwise it is the value of the first format that parses. |
| Reader.ParseMixedDate | src/cr_smps/io/reader.py:62-81 | An empty cell is NaT. Otherwise the first of the four day-first formats that parses wins, and failing those, the permissive day-first parse. A cell nothing parses is NaT; no error is raised. |
| Reader.ZoneTag | src/cr_smps/io/reader.py:109-122 | A requested name the zone database rejects as malformed raises ValueError, which is not caught. Otherwise the record carries the requested zone exactly when one was requested and the database knows it; an unknown zone leaves it without one. |
| Reader.DateIndex | src/cr_smps/io/reader.py:84 | The index has one entry per kept row: the parse of that row's date cell. |
| Reader.IndexRows | src/cr_smps/io/reader.py:49-84 | The status-column KeyError comes first, then a missing date column raises KeyError. On success the date column is dropped from the labels, and row i of the result is kept row i without its date cell, indexed by the parse of that cell. |
| Reader.IndexBy | src/cr_smps/io/reader.py:84 | Every kept row loses its date cell and is indexed by that cell's parse, in row order; the rows stay as wide as the remaining labels. |
| Reader.EarliestTimeSpec | src/cr_smps/io/reader.py:129-130 | The start (end) time is an index instant no later (earlier) than any other parsed instant. It is NaT exactly when nothing parsed. |
| Reader.DerivedMetadata | src/cr_smps/io/reader.py:129-132 | The metadata holds, in this order: Start Time = min of the index, End Time = max of the index, Number of Samples = number of kept rows, Lower Size and Upper Size = the size bounds (a number, NaN, or a text). With no kept row the index is an empty object index, and Start Time and End Time are NaN rather than NaT. The keys are distinct. |
| Reader.ColumnBounds | src/cr_smps/io/reader.py:136-151 | Line 52 without its cell 1 is searched. A line too short for the `pop(1)` raises IndexError. A missing concentration sentinel raises. The start is the sentinel's first position. The end is the raw-concentration sentinel's first position, else the position of "Raw Data - Time (s)" minus one, else -1. |
| Reader.InBounds | src/cr_smps/io/reader.py:163 | One label is in range exactly when it is a number lying between two numeric bounds. A label that is not a number raises ValueError. A text lower bound raises TypeError. A text upper bound raises TypeError only when the lower comparison holds. |
| Reader.Diameters | src/cr_smps/io/reader.py:153-155 | Converting the diameter labels to floats succeeds exactly when every label is a number, and gives each label's value. |
| Reader.ColumnExtreme | src/cr_smps/io/reader.py:159-160 | A size column holding text beside a number or an empty cell raises TypeError. A column of texts only gives its least (greatest) text by code point order. Otherwise the min (max) is a number of the column no larger (smaller) than any other, skipping empty cells, and NaN exactly when the column has no number. |
| Reader.SizeExtreme | src/cr_smps/io/reader.py:159-160 | A missing "Lower Size (nm)" or "Upper Size (nm)" column raises KeyError. Otherwise the result is that column's extreme. |
| Reader.Narrow | src/cr_smps/io/reader.py:162-164 | When no comparison raises, the kept labels are the comprehension's: the labels passing `lower <= float(col) <= upper`, in their original order. Otherwise the error is that of the first label whose comparison raises. |
| Reader.NarrowExact | src/cr_smps/io/reader.py:162-164 | The kept labels are the labels at an increasing list of positions, and a position is listed exactly when its diameter lies between two numeric bounds. A NaN bound keeps none. |
| Reader.SampledSizes | src/cr_smps/io/reader.py:153-169 | The diameter columns are the Python slice `cols[start:end]`. Errors come in source order: a non-numeric label, then the lower-size extreme, then the upper-size extreme, then the narrowing. The bounds are the column extremes, and the kept columns are the slice narrowed to them. |
| Reader.SelectColumns | src/cr_smps/io/reader.py:167 | Each row of `sample_data` holds, per kept label, the cell under that label. |
| Reader.Tables | src/cr_smps/io/reader.py:167-172 | `sample_data` has the kept columns and, per row, the cells under them. `sample_metadata` has columns `0 .. start-2` (the slice `[0:start-1]`) and, per row, the same slice of that row. Both tables are indexed by the parsed dates and are well formed. |
| Reader.Assemble | src/cr_smps/io/reader.py:126-172 | A size error is passed on unchanged. A successful record is coherent (well-formed tables sharing one index; distinct keys; start, end and sample count taken from that index). It holds the sampled columns of every row, the sample-metadata slice of every row, the size bounds in its metadata, and the tagged zone. |
| Reader.Parse | src/cr_smps/io/reader.py:47-172 | Errors come in source order: row filter and date column, then the zone name, then line 52, then sizes. With a resolvable zone and no kept row, `.dt` raises AttributeError. A successful parse is the record Assemble describes, built from the indexed rows and line 52's bounds, with the zone ZoneTag gives. |
| Reader.HeaderBlock | src/cr_smps/io/reader.py:177 | At most the first 45 lines form the header block. |
| Reader.MergeHeaderLookup | src/cr_smps/io/reader.py:178-181 | After the merge, a key reads the value of its last line in the header block, overriding any derived entry. A key not in the block keeps its old value. |
| Reader.MergeHeaderKeepsOrder | src/cr_smps/io/reader.py:178-181 | The merge keeps the existing keys in place and in order, and new keys only come after them. |
| Reader.Basename | src/cr_smps/io/reader.py:44 | The file name is the part of the path after its last separator. It contains no separator. |
| Reader.BasenameOfJoin | src/cr_smps/io/reader.py:44 | The name of a path built as directory-with-separator plus name is that name. |
| Reader.WithSeparator | src/cr_smps/io/reader.py:216-218 | A separator is appended to the directory path exactly when it does not already end with one. |
| Reader.CandidatePathsSpec | src/cr_smps/io/reader.py:219-220 | The candidates are exactly the directory entries whose names contain "SMPS", end in ".csv" and do not start with "." (glob skips hidden names), prefixed with the directory. Each appears as often as the listing gives it, and they are sorted lexicographically. |
| Reader.Store | src/cr_smps/io/reader.py:42-172 | The record takes the file name, the zone tag, the derived metadata and the two tables, and keeps its raw data. |
| Reader.MergeInto | src/cr_smps/io/reader.py:175-181 | The loop that assigns `metadata[key] = value` line by line leaves the merged metadata and changes no other field. |
| Reader.FromCsv | src/cr_smps/io/reader.py:12-190 | The reader fails exactly when the file does not parse, and with the parse's error. Otherwise it returns a fresh record that holds the parse, named after the file. Its metadata is merged with the header block exactly when `read_metadata` is set. It has no raw data. |
| Reader.LoadNext | src/cr_smps/io/reader.py:228-235 | One loop step either appends the record of the next path, keeping every record in step with its path, or stops with the error of the first file that fails. |
| Reader.LoadAll | src/cr_smps/io/reader.py:225-238 | On success there is one record per path, in path order, each the reader's record for its path. On failure the error is that of the first path whose file fails to parse. |
| Reader.ListFromDir | src/cr_smps/io/reader.py:193-238 | Does what LoadAll does, over the sorted `*SMPS*.csv` candidates of the directory with a separator appended. |
| Reader.DatasetFromList | src/cr_smps/io/reader.py:241-256 | The new dataset holds exactly the given list. |
| SmpsRecord.Lookup | src/cr_smps/core/smps_data.py:82-85 | A key is found exactly when it is in the metadata, and then with its value. |
| SmpsRecord.Assign | src/cr_smps/io/reader.py:181 | Dictionary assignment: the key gets the value, and no other key changes. An existing key keeps its place; a new key goes last. Keys stay distinct. |
| SmpsRecord.SmpsData.constructor | src/cr_smps/core/smps_data.py:9-31 | A fresh record has empty metadata and empty tables, and no raw data, file name or zone. |
| SmpsRecord.SmpsData.Len | src/cr_smps/core/smps_data.py:34-45 | `len()` raises KeyError when "Number of Samples" is absent. It is 0 when the count is 0, and the count when the count is positive. A positive length is always the stored count. |
| SmpsRecord.SmpsData.AllLines | src/cr_smps/core/smps_data.py:96-98 | Without keys, one `k: v` line is printed per metadata entry, in insertion order. |
| SmpsRecord.SmpsData.MetadataLines | src/cr_smps/core/smps_data.py:79-98 | A non-empty single key prints its line, or "Metadata 'k' is not found.". None or an empty selector prints every entry in order. A non-empty list or tuple raises TypeError (as written). |
| SmpsRecord.SmpsData.MetadataLinesIntended | src/cr_smps/core/smps_data.py:86-94 | The list/tuple branch as intended: one line per requested key, in the order given. The other branches are unchanged. |
| SmpsRecord.PrintMetadataListDiscrepancy | src/cr_smps/core/smps_data.py:87-89 | The written and the intended `print_metadata` differ exactly on non-empty key lists, where the written one raises. They agree everywhere else. |
| Dataset.SmpsDataset.constructor | src/cr_smps/core/smps_dataset.py:20-31 | A new dataset holds no records. |
| Dataset.SmpsDataset.Length | src/cr_smps/core/smps_dataset.py:33-41 | `len()` is the number of records. |
| Dataset.SmpsDataset.Get | src/cr_smps/core/smps_dataset.py:43-55 | Indexing succeeds exactly for `-n <= i < n`. A negative index counts from the end. Anything else raises IndexError. |
| Dataset.SmpsDataset.Add | src/cr_smps/core/smps_dataset.py:161-173 | The record is appended, and the earlier records stay as they were. |
| Dataset.StartKeys | src/cr_smps/core/smps_dataset.py:68-72 | The sort keys exist exactly when every record has a start time. Otherwise KeyError("Start Time") is raised. |
| Dataset.SortOrderPermutation | src/cr_smps/core/smps_dataset.py:68-72 | The sort order is a permutation of the positions. |
| Dataset.SortOrderSorted | src/cr_smps/core/smps_dataset.py:68-72 | Along the sort order, start times never decrease. |
| Dataset.SortOrderStable | src/cr_smps/core/smps_dataset.py:68-72 | Records with equal start times keep their original relative order. |
| Dataset.SortOrderOfSorted | src/cr_smps/core/smps_dataset.py:68-72 | Records already in start-time order are left where they are. |
| Dataset.SortOrderIdempotent | src/cr_smps/core/smps_dataset.py:68-72 | Sorting the sorted records again changes nothing. |
| Dataset.ReorderPermutes | src/cr_smps/core/smps_dataset.py:68-72 | Rearranging along a permutation of the positions keeps the same multiset of elements. |
| Dataset.SortedStartsStay | src/cr_smps/core/smps_dataset.py:68-72 | After a sort the start times are non-decreasing, and a second sort keeps the order. |
| Dataset.PairCheck | src/cr_smps/core/smps_dataset.py:77-79 | Reading "End Time" of the previous record or "Start Time" of the current one raises KeyError when absent. Otherwise the pair is reported exactly when `prev end >= curr start`. |
| Dataset.ScanFailsOnMissingEnd | src/cr_smps/core/smps_dataset.py:74-84 | With every start time present, the scan fails exactly when a record before the last has no end time, and with KeyError("End Time"). |
| Dataset.ScanStopsAtError | src/cr_smps/core/smps_dataset.py:74-84 | The first error ends the scan. |
| Dataset.ScanReportsOverlaps | src/cr_smps/core/smps_dataset.py:74-84 | A completed scan reports, in increasing order, exactly the positions `i` whose pair `(i-1, i)` overlaps. Equal times count as an overlap. |
| Dataset.ScanSpans | src/cr_smps/core/smps_dataset.py:74-84 | The loop over adjacent pairs computes the scan. |
| Dataset.ScanOverlaps | src/cr_smps/core/smps_dataset.py:74-84 | The scan runs over the records' start and end times, and reads the records without changing them. |
| Dataset.SmpsDataset.SortByTime | src/cr_smps/core/smps_dataset.py:57-84 | Fewer than two records: nothing changes and nothing is reported. A missing start time: KeyError and the list unchanged. Otherwise the list becomes the stable start-time sort of the old list (a permutation of it), and the result is the overlap scan of the sorted list. |
| Dataset.EarliestStart | src/cr_smps/core/smps_dataset.py:270-274 | The earliest start time among the records that have one: a start time of some record, no later than any other. It is None exactly when no record has one. |
| Dataset.LatestEnd | src/cr_smps/core/smps_dataset.py:275-279 | The latest end time among the records that have one: an end time of some record, no earlier than any other. It is None exactly when no record has one. |
| Calendar.IsoDateInjective | src/cr_smps/core/smps_dataset.py:259-261 | Two days share their `%Y-%m-%d` text exactly when they are the same day (years 0 to 9999). |
| Calendar.OffsetTextInjective | src/cr_smps/core/smps_dataset.py:266 | The `+HH:MM` suffix that `str()` gives a zone-aware Timestamp determines its UTC offset: two offsets print alike exactly when they are equal. |
| Dataset.DateCaptionSameDay | src/cr_smps/core/smps_dataset.py:259-264 | The caption is "Date: d" exactly when both instants fall on the same day, and "Date Range: a to b" otherwise. |
| Dataset.RecordsCaption | src/cr_smps/core/smps_dataset.py:268-287 | No records gives "All Available Data". Otherwise the caption spans the earliest start to the latest end. `min`/`max` of nothing raises ValueError. |
| Dataset.RangeCaption | src/cr_smps/core/smps_dataset.py:258-264 | Both ends go through `pd.to_datetime`, and the first failure is raised. Otherwise the caption is that of the two instants. |
| Dataset.Subtitle | src/cr_smps/core/smps_dataset.py:255-287 | The branch per selector: a text gives "Date: text"; a Timestamp gives "Date: " and its `str()`, with the `+HH:MM` offset when it is zone-aware; a two-item tuple or list gives the range caption; no selector gives the records caption; anything else gives "Date: str(value)". |
| Heatmap.ToInstant | src/cr_smps/analysis/plotting/plot_heatmap.py:90-91 | A Timestamp is taken as is. A text parses exactly when `pd.to_datetime` accepts it. |
| Heatmap.StampOf | src/cr_smps/analysis/plotting/plot_heatmap.py:90-91 | `pd.to_datetime` of one end fails exactly when ToInstant does; otherwise it gives that reading, zone-aware with the Timestamp's offset when one was given and naive for a text. |
| Heatmap.NotBefore | src/cr_smps/analysis/plotting/plot_heatmap.py:92 | `start >= end` raises TypeError exactly when one end is zone-aware and the other naive. Two naive ends compare their readings, two zone-aware ends their UTC instants. |
| Heatmap.DayWindow | src/cr_smps/analysis/plotting/plot_heatmap.py:78-81 | The window of a date lies within that day. Widened as written, its ends sit at the times of day of `Timestamp.min` and `Timestamp.max`. Widened as intended, it holds exactly the instants of the day. |
| Heatmap.RangeWindow | src/cr_smps/analysis/plotting/plot_heatmap.py:95-113 | Ends that are not both midnights are kept. Two midnights widen to the first and the last date, in order when the first reading is earlier. With whole days, the window holds exactly the instants of the days from the first date to the second. |
| Heatmap.RangeResolution | src/cr_smps/analysis/plotting/plot_heatmap.py:89-117 | Ends of different awareness raise TypeError at `start >= end`; ends in the wrong order raise ValueError. Otherwise the ends agree in awareness, and it gives the window, the inclusive `Between` filter over it, and the caption and file name: dates only for two midnights, dates and clock times otherwise. The filter is zone-aware exactly when the ends are and were not widened, since `Timestamp.combine` gives naive bounds; the window then keeps the ends' UTC offsets. |
| Heatmap.ResolveUsing | src/cr_smps/analysis/plotting/plot_heatmap.py:63-122 | No selector: no window, "All Data", "heatmap_all.png", and every row passes. A single date: its day window, its ISO date, "heatmap_<date>.png", and exactly the rows of that day pass. A two-item range: the first end's parse error, else the second's, else RangeResolution of the two stamps. Any other shape raises ValueError. |
| Heatmap.ResolveMaskMatchesWindow | src/cr_smps/analysis/plotting/plot_heatmap.py:78-117 | With whole-day windows, the row filter passes exactly the instants inside the axis window. |
| Heatmap.MidnightRangeCoversWholeDays | src/cr_smps/analysis/plotting/plot_heatmap.py:95-117 | A range of two midnights in order selects every row of every day from the first date to the second (corrected behaviour), through a naive filter. |
| Heatmap.AsWrittenRangeDropsEarlyRows | src/cr_smps/analysis/plotting/plot_heatmap.py:104-117 | As written, a range of two consecutive midnights drops a row at 00:05 of the first day, which the intended filter keeps. |
| Heatmap.AsWrittenSingleDateWindowShort | src/cr_smps/analysis/plotting/plot_heatmap.py:77-86 | As written, a single date's axis window misses the first and last twelve minutes of the day, which its filter selects. |
| Heatmap.TickPlan | src/cr_smps/analysis/plotting/plot_heatmap.py:173-212 | No window: automatic ticks. Otherwise, by `total_days`, the whole days of the window's span plus one: at most 1 gives hourly; 2 to 12 gives daily with minor ticks at 6, 12 and 18; above 12 gives automatic. |
| Heatmap.WindowSpan | src/cr_smps/analysis/plotting/plot_heatmap.py:176 | `xlim[1] - xlim[0]`: none without a window, the readings' difference for naive ends, the UTC instants' difference for zone-aware ends. |
| Heatmap.RangeSpanIsElapsed | src/cr_smps/analysis/plotting/plot_heatmap.py:173-176 | For a range that is not widened, the span that decides the ticks is the elapsed time between the ends: their UTC difference when zone-aware, their readings' difference when naive. |
| Heatmap.AwareRangeTicksByElapsedTime | src/cr_smps/analysis/plotting/plot_heatmap.py:176-180 | From 12:00 at +01:00 to 12:30 the next day at +02:00 is 23.5 hours, so `total_days` is 1 and the ticks are hourly, although the readings lie more than a day apart. |
| Heatmap.SingleDateIsOneDay | src/cr_smps/analysis/plotting/plot_heatmap.py:78-81 | A single-date window is naive and always has `total_days == 1`, so its ticks are hourly. |
| Heatmap.MidnightRangeDayCount | src/cr_smps/analysis/plotting/plot_heatmap.py:105-107 | A range of two midnights in order counts `total_days` as the number of dates from the first to the second, inclusive. |
| Heatmap.Clamp | src/cr_smps/analysis/plotting/plot_heatmap.py:134-135 | A value below 10 becomes 10, a value of 10 or more is unchanged, and an empty cell stays empty. |
| Heatmap.Selected | src/cr_smps/analysis/plotting/plot_heatmap.py:127-131 | The selected rows are, in increasing order, exactly those whose instant passes the filter. There are none exactly when no row passes. |
| Heatmap.SelectedTimes | src/cr_smps/analysis/plotting/plot_heatmap.py:131-132 | The x values are the index instants of the selected rows. |
| Heatmap.FlooredBlock | src/cr_smps/analysis/plotting/plot_heatmap.py:131-135 | The transposed block has one line per diameter. Each entry is the clamped cell of the selected row. |
| Heatmap.BlockOf | src/cr_smps/analysis/plotting/plot_heatmap.py:115-135 | A range filter whose awareness differs from the record's index raises TypeError: a zoned record against naive bounds, or a naive record against zone-aware bounds. Otherwise a record is skipped exactly when no row passes; when a row passes, it raises TypeError exactly when a selected cell holds text, and is drawn otherwise. A drawn block has rows and the record's diameters. |
| Heatmap.BlockOfContents | src/cr_smps/analysis/plotting/plot_heatmap.py:131-135 | A drawn block shows exactly the selected rows: their instants, the diameters, and each concentration clamped. |
| Heatmap.BlockOfSkips | src/cr_smps/analysis/plotting/plot_heatmap.py:128-130 | A record is skipped exactly when its filter selects nothing. |
| Heatmap.Plotted | src/cr_smps/analysis/plotting/plot_heatmap.py:126-143 | The loop draws at most one block per record; PlottedBlocks states which. |
| Heatmap.PlottedSkipsEmpty | src/cr_smps/analysis/plotting/plot_heatmap.py:126-130 | The loop draws exactly one block per record whose filter selects something. |
| Heatmap.PlottedBlocks | src/cr_smps/analysis/plotting/plot_heatmap.py:126-143 | The drawn blocks are, in list order, exactly the blocks of the records whose filter selects something, one each. |
| Heatmap.DrawsEachAppend | src/cr_smps/analysis/plotting/plot_heatmap.py:126-143 | Drawing one more record's block keeps the blocks in step with the records drawn. |
| Heatmap.BlockFloored | src/cr_smps/analysis/plotting/plot_heatmap.py:134-135 | No drawn value is below 10. |
| Heatmap.PlottedFloored | src/cr_smps/analysis/plotting/plot_heatmap.py:126-143 | No value in any drawn block is below 10. |
| Heatmap.PlottedErrorStops | src/cr_smps/analysis/plotting/plot_heatmap.py:126-128 | The first error ends the loop. |
| Heatmap.ClampInPlace | src/cr_smps/analysis/plotting/plot_heatmap.py:134-135 | `Z[Z < 10] = 10` on the array: every entry becomes its clamp. |
| Heatmap.FloorSelected | src/cr_smps/analysis/plotting/plot_heatmap.py:131-135 | Copying the selected rows into an array and clamping it in place gives the floored block. |
| Heatmap.DrawOne | src/cr_smps/analysis/plotting/plot_heatmap.py:127-143 | One loop iteration gives the block BlockOf describes. |
| Heatmap.DrawSources | src/cr_smps/analysis/plotting/plot_heatmap.py:126-143 | The loop gives the blocks Plotted describes. |
| Heatmap.DrawRecords | src/cr_smps/analysis/plotting/plot_heatmap.py:126-143 | The loop over the dataset's records gives the blocks of their sample tables and zones. |
| Heatmap.JoinPath | src/cr_smps/analysis/plotting/plot_heatmap.py:233 | `os.path.join`: an absolute name replaces the directory. Otherwise the path is the directory, then a separator unless the directory is empty or already ends in one, then the name: it starts with the directory, ends with the name, and its length is exactly their sum plus the separator added. |
| Heatmap.SavePath | src/cr_smps/core/smps_dataset.py:310-314 | With a non-empty output directory the figure is saved at `join(output_dir, fname)` as JoinPath describes, else at `fname`. |
| Sorting.SortPermutation | src/cr_smps/core/smps_dataset.py:68-72 | The sort returns a permutation of its input. |
| Sorting.SortSorted | src/cr_smps/core/smps_dataset.py:68-72 | Under a total preorder, the sort returns a sorted list. |
| Sorting.SortStable | src/cr_smps/core/smps_dataset.py:68-72 | Sorting by key keeps equal keys in their original order. |
| Sorting.SortOfSorted | src/cr_smps/core/smps_dataset.py:68-72 | A list that is already sorted comes back unchanged. |

## Left out

- `dlogDp` (`src/cr_smps/io/reader.py:155`): the mean of the log10 differences is floating-point arithmetic, and the record has no `dlogDp` field. The conversion of the labels to floats before it is modelled, as `Reader.Diameters`, with its ValueError.
- Console output:
  - the NaT warning and the list of unparsable rows;
  - the unknown-zone message;
  - the "new raw data format" message;
  - the `read_rawdata` notice;
  - the directory listing;
  - the overlap warning text. The overlap positions are returned instead.
  - `print_data`, `print_columns` and `print_time_range` print only. `print_time_range` passes a list to `print_metadata`, so it reaches the TypeError below.
- File access:
  - `pd.read_csv`, `glob` and `os.makedirs` are parameters (the file contents, the directory entries) or not modelled;
  - `plt.savefig` is not modelled, only the path it writes to.
- Rendering: pcolormesh, axes, labels, formatters, colorbar, `plt.show`. Only the decisions are modelled: window, caption, file name, filter, blocks and tick plan.
- Time-zone localisation: a resolvable zone is recorded as a tag on the record, and the instants stay wall-clock readings. `tz_localize` errors on nonexistent or ambiguous local times (daylight-saving changes) are not modelled. Comparing an index with range bounds of the other awareness is modelled as the TypeError pandas raises; the messages are paraphrased, since pandas names the index's dtype in them.
- A date cell that pandas reads as a number rather than text is treated as NaT.
- A date text with a UTC offset, which pandas parses to a zone-aware Timestamp, is treated like a naive reading; `tz_localize` of such an index is not modelled.
- Cells are as pandas types them: a column with any non-numeric entry holds every non-empty cell as text, including numerals. The model does not derive a column's type from the whole file; a size column whose kept cells mix numbers and texts raises TypeError, as Python's comparison of a float with a str does.
- Dataset.SmpsDataset.SortByTime: requires every present "Start Time" and "End Time" to be a parsed instant. Sorting with NaT keys and comparing naive with zoned timestamps are not modelled. Records in two different zones are ordered, and checked for overlap, by their wall-clock readings, where Python compares UTC instants: a record keeps only its zone's name, not its offsets.
- Dataset.RecordsCaption: a record whose "Start Time" or "End Time" is NaT, or holds a value that is not an instant (a header line may overwrite the derived entry with text), is treated like one without the key. Python's `min`/`max` would compare such values with the instants: text beside a Timestamp raises TypeError, and a lone text reaches `pd.to_datetime`. Start and end times of records in two different zones are compared by their wall-clock readings, where Python's `min`/`max` compare UTC instants.
- Reader.ListFromDir: does not state that the records returned are new objects. Reader.FromCsv states it for each record.
- Reader.LoadAll: does not state that the records returned are new objects, for the same reason.
- `_SMPSDataset_from_dir` (`src/cr_smps/io/reader.py:259-287`): it stores the `SMPSDataset` built from the list inside `smpsdata_list` of a second dataset, instead of the list. A dataset whose list is another dataset is not modelled; `Reader.DatasetFromList` models the helper it calls.
- `SMPSDataset.plot_heatmap` calls `_plot_heatmap` with `ax` and `output_time_zone`, which that function does not accept (`src/cr_smps/core/smps_dataset.py:245-250`), and expects two return values from a function that returns none. The method therefore always raises TypeError. Its subtitle and save path are modelled as the functions `Dataset.Subtitle` and `Heatmap.SavePath`, and `output_time_zone` is not modelled.
- Raw data (`rawdata`) is never read. Records keep `None`.
- Python `datetime.datetime` values that are not `pd.Timestamp`, and `pd.DateOffset` selectors: a selector is a text, a Timestamp (naive, or zone-aware with its UTC offset), a tuple or list, or something else.
- Heatmap.BlockOf: a zone-aware range and a zoned record are compared by their wall-clock readings. This is exact when the range's ends are given in the record's own zone at times without a daylight-saving change; the shift between two different zones is not applied, because a record's zone is kept as a tag without its offsets.
- joblib save and load, `plot_pnsd`, electrical mobility and PSL curve fitting are outside the modelled core.

## Findings

| source | as written | input that shows it | evidently intended | confidence | as-written member | corrected member |
|---|---|---|---|---|---|---|
| src/cr_smps/analysis/plotting/plot_heatmap.py:106-107 | A range of two midnights is widened with `pd.Timestamp.min.time()` and `pd.Timestamp.max.time()`, i.e. 00:12:43.145224 and 23:47:16.854775, and the filter keeps only rows inside that window (lines 79-80 do the same for the axis window of a single date). | `time_range = ("2024-01-01", "2024-01-02")` and a row at 2024-01-01 00:05: the row is dropped. | The whole first and last day, from 00:00:00 to 23:59:59.999999, as the comment at line 105 says. | not executed | Heatmap.AsWrittenRangeDropsEarlyRows | Heatmap.MidnightRangeCoversWholeDays |
| src/cr_smps/core/smps_data.py:87-89 | `isinstance(keys, (list, tuple) and all(...))` passes a bool as the type argument, so every non-empty list or tuple of keys raises TypeError. | `print_metadata(["Start Time"])` | One line per requested key, in the order given. | not executed | SmpsRecord.SmpsData.MetadataLines | SmpsRecord.SmpsData.MetadataLinesIntended |

=== FILE: calendar.dfy ===
/**
 * Instants, calendar days and the date/time texts the heatmap code builds with
 * strftime and str(). An instant is a wall-clock reading in microseconds since
 * 1970-01-01 00:00:00; a day is a day number counted from the same origin.
 */
module Calendar {

  /** Microseconds in one day. */
  const DayMicros: int := 86_400_000_000

  /** The calendar day of an instant (`.date()`); floor division, also before 1970. */
  function Day(t: int): (d: int)
    ensures DayStart(d) <= t <= DayEnd(d)
  {
    t / DayMicros
  }

  /** 00:00:00.000000 of day `d`. */
  function DayStart(d: int): int { d * DayMicros }

  /** 23:59:59.999999 of day `d`. */
  function DayEnd(d: int): int { (d + 1) * DayMicros - 1 }

  /** Microseconds elapsed since the midnight that starts the instant's day. */
  function TimeOfDay(t: int): (r: int)
    ensures 0 <= r < DayMicros
    ensures t == DayStart(Day(t)) + r
  {
    t % DayMicros
  }

  /** True when hour, minute, second and microsecond are all zero. */
  predicate AtMidnight(t: int) { TimeOfDay(t) == 0 }

  lemma DayOfBounds(t: int, d: int)
    requires DayStart(d) <= t <= DayEnd(d)
    ensures Day(t) == d
  {
  }

  /** An instant lies in day `d` exactly when it is between the day's first and last microsecond. */
  lemma DayBounds(d: int)
    ensures Day(DayStart(d)) == d && Day(DayEnd(d)) == d
    ensures forall t :: Day(t) == d <==> DayStart(d) <= t <= DayEnd(d)
  {
    forall t | DayStart(d) <= t <= DayEnd(d)
      ensures Day(t) == d
    {
      DayOfBounds(t, d);
    }
  }

  /** Later instants never fall on earlier days. */
  lemma DayMonotone(a: int, b: int)
    requires a <= b
    ensures Day(a) <= Day(b)
  {
  }

  /** The instants from the first microsecond of day `a` to the last of day `b` are those of days `a` to `b`. */
  lemma DaySpan(a: int, b: int)
    ensures forall t :: DayStart(a) <= t <= DayEnd(b) <==> a <= Day(t) <= b
  {
    forall t
      ensures DayStart(a) <= t <= DayEnd(b) <==> a <= Day(t) <= b
    {
      var d := Day(t);
      if a <= d {
        assert DayStart(a) <= DayStart(d);
      } else {
        assert DayEnd(d) < DayStart(a);
      }
      if d <= b {
        assert DayEnd(d) <= DayEnd(b);
      } else {
        assert DayEnd(b) < DayStart(d);
      }
    }
  }

  // ---------------------------------------------------------------------
  // Proleptic Gregorian calendar (days <-> year, month, day)
  // ---------------------------------------------------------------------

  datatype Civil = Civil(year: int, month: int, day: int)

  /**
   * Splits a day of a 400-year era (eras start on 1 March of a year divisible by
   * 400) into the year of the era and the day of that year, counted from 1 March.
   */
  function YearOfEra(doe: int): (r: (int, int))
    requires 0 <= doe < 146097
    ensures 0 <= r.0 < 400 && 0 <= r.1 < 366
    ensures doe == 365 * r.0 + r.0 / 4 - r.0 / 100 + r.1
  {
    var c := if doe == 146096 then 3 else doe / 36524;
    var doc := doe - 36524 * c;
    var q := doc / 1461;
    var doq := doc - 1461 * q;
    var yq := if doq == 1460 then 3 else doq / 365;
    var yoe := 100 * c + 4 * q + yq;
    assert yoe / 4 == 25 * c + q;
    assert yoe / 100 == c;
    (yoe, doq - 365 * yq)
  }

  /** Month (counted from March) and day of month of a day of the year counted from 1 March. */
  function MonthOfYear(doy: int): (r: (int, int))
    requires 0 <= doy < 366
    ensures 0 <= r.0 < 12 && 1 <= r.1 <= 31
    ensures doy == (153 * r.0 + 2) / 5 + r.1 - 1
  {
    var mp := (5 * doy + 2) / 153;
    (mp, doy - (153 * mp + 2) / 5 + 1)
  }

  /** Year, month and day of day number `z` (days since 1970-01-01). */
  function CivilFromDays(z: int): (c: Civil)
    ensures 1 <= c.month <= 12 && 1 <= c.day <= 31
  {
    var z0 := z + 719468;
    var era := z0 / 146097;
    var (yoe, doy) := YearOfEra(z0 - era * 146097);
    var (mp, d) := MonthOfYear(doy);
    var m := if mp < 10 then mp + 3 else mp - 9;
    Civil(if m <= 2 then yoe + era * 400 + 1 else yoe + era * 400, m, d)
  }

  /** Day number (days since 1970-01-01) of a calendar date. */
  function DaysFromCivil(c: Civil): int
  {
    var y := if c.month <= 2 then c.year - 1 else c.year;
    var era := y / 400;
    var yoe := y - era * 400;
    var mp := if c.month > 2 then c.month - 3 else c.month + 9;
    var doy := (153 * mp + 2) / 5 + c.day - 1;
    var doe := yoe * 365 + yoe / 4 - yoe / 100 + doy;
    era * 146097 + doe - 719468
  }

  /** DaysFromCivil undoes the era, year, month and day split made by CivilFromDays. */
  lemma DaysFromCivilOfSplit(era: int, yoe: int, doy: int, mp: int, d: int)
    requires 0 <= yoe < 400 && 0 <= doy < 366 && 0 <= mp < 12
    requires doy == (153 * mp + 2) / 5 + d - 1
    ensures var m := if mp < 10 then mp + 3 else mp - 9;
            var c := Civil(if m <= 2 then yoe + era * 400 + 1 else yoe + era * 400, m, d);
            DaysFromCivil(c) == era * 146097 + (365 * yoe + yoe / 4 - yoe / 100 + doy) - 719468
  {
    var y := yoe + era * 400;
    assert y / 400 == era;
  }

  /** Converting a day number to a date and back gives the day number. */
  lemma CivilRoundTrip(z: int)
    ensures DaysFromCivil(CivilFromDays(z)) == z
  {
    var z0 := z + 719468;
    var era := z0 / 146097;
    var doe := z0 - era * 146097;
    var (yoe, doy) := YearOfEra(doe);
    var (mp, d) := MonthOfYear(doy);
    var m := if mp < 10 then mp + 3 else mp - 9;
    var c := Civil(if m <= 2 then yoe + era * 400 + 1 else yoe + era * 400, m, d);
    assert CivilFromDays(z) == c;
    DaysFromCivilOfSplit(era, yoe, doy, mp, d);
    assert DaysFromCivil(c) == era * 146097 + doe - 719468;
  }

  /** Different days have different calendar dates. */
  lemma CivilInjective(z1: int, z2: int)
    requires CivilFromDays(z1) == CivilFromDays(z2)
    ensures z1 == z2
  {
    CivilRoundTrip(z1);
    CivilRoundTrip(z2);
  }

  // ---------------------------------------------------------------------
  // Texts built with strftime and str()
  // ---------------------------------------------------------------------

  function Pow10(w: nat): (p: nat)
    ensures p >= 1
  {
    if w == 0 then 1 else 10 * Pow10(w - 1)
  }

  function DigitChar(k: int): char
    requires 0 <= k < 10
  {
    "0123456789"[k]
  }

  /** The last `w` decimal digits of `n`, zero-padded on the left (`%02d`, `%04d`, ...). */
  function Pad(n: nat, w: nat): (s: string)
    ensures |s| == w
    ensures forall i :: 0 <= i < |s| ==> '0' <= s[i] <= '9'
  {
    if w == 0 then "" else Pad(n / 10, w - 1) + [DigitChar(n % 10)]
  }

  /** Below 10^w, the padded text determines the number. */
  lemma {:induction false} PadInjective(a: nat, b: nat, w: nat)
    requires a < Pow10(w) && b < Pow10(w)
    requires Pad(a, w) == Pad(b, w)
    ensures a == b
  {
    if w > 0 {
      var pa, pb := Pad(a, w), Pad(b, w);
      assert pa[w - 1] == pb[w - 1];
      assert a % 10 == b % 10;
      assert pa[..w - 1] == Pad(a / 10, w - 1) && pb[..w - 1] == Pad(b / 10, w - 1);
      PadInjective(a / 10, b / 10, w - 1);
    }
  }

  /** `%Y`: the year on four digits. */
  function YearText(y: int): string
  {
    if y >= 0 then Pad(y, 4) else "-" + Pad(-y, 4)
  }

  /** `%Y-%m-%d`, also `str()` of a date. */
  function IsoDate(day: int): (s: string)
    ensures 0 <= CivilFromDays(day).year < 10000 ==> |s| == 10 && s[4] == '-' && s[7] == '-'
  {
    var c := CivilFromDays(day);
    YearText(c.year) + "-" + Pad(c.month, 2) + "-" + Pad(c.day, 2)
  }

  /** `%Y%m%d`. */
  function CompactDate(day: int): string
  {
    var c := CivilFromDays(day);
    YearText(c.year) + Pad(c.month, 2) + Pad(c.day, 2)
  }

  /** Hour, minute and second of an instant. */
  function Clock(t: int): (int, int, int)
  {
    var secs := TimeOfDay(t) / 1_000_000;
    (secs / 3600, secs / 60 % 60, secs % 60)
  }

  /** `%H:%M:%S`. */
  function ClockText(t: int): string
  {
    var (h, m, s) := Clock(t);
    Pad(h, 2) + ":" + Pad(m, 2) + ":" + Pad(s, 2)
  }

  /** `%Y-%m-%d %H:%M:%S`. */
  function IsoDateTime(t: int): string
  {
    IsoDate(Day(t)) + " " + ClockText(t)
  }

  /** `%Y%m%d_%H%M%S`. */
  function CompactDateTime(t: int): string
  {
    var (h, m, s) := Clock(t);
    CompactDate(Day(t)) + "_" + Pad(h, 2) + Pad(m, 2) + Pad(s, 2)
  }

  /** `str()` of a naive Timestamp: microseconds are shown only when non-zero. */
  function StampText(t: int): string
  {
    var micros := TimeOfDay(t) % 1_000_000;
    IsoDateTime(t) + (if micros == 0 then "" else "." + Pad(micros, 6))
  }

  /** A UTC offset in minutes; Python keeps it strictly within one day. */
  type UtcOffset = m: int | -24 * 60 < m < 24 * 60

  /** The `+HH:MM` (or `-HH:MM`) suffix `str()` puts after a zone-aware Timestamp whose UTC offset is `m` minutes. */
  function OffsetText(m: UtcOffset): (s: string)
    ensures |s| == 6 && s[3] == ':'
    ensures s[0] == (if m < 0 then '-' else '+')
    ensures var a := if m < 0 then -m else m;
            s[1..3] == Pad(a / 60, 2) && s[4..] == Pad(a % 60, 2)
  {
    var a := if m < 0 then -m else m;
    (if m < 0 then "-" else "+") + Pad(a / 60, 2) + ":" + Pad(a % 60, 2)
  }

  /** Two UTC offsets print the same suffix exactly when they are the same offset. */
  lemma OffsetTextInjective(m1: UtcOffset, m2: UtcOffset)
    ensures OffsetText(m1) == OffsetText(m2) <==> m1 == m2
  {
    if OffsetText(m1) == OffsetText(m2) {
      var s1, s2 := OffsetText(m1), OffsetText(m2);
      var a1 := if m1 < 0 then -m1 else m1;
      var a2 := if m2 < 0 then -m2 else m2;
      assert s1[0] == s2[0];
      assert s1[1..3] == s2[1..3] && s1[4..] == s2[4..];
      assert Pow10(2) == 100;
      PadInjective(a1 / 60, a2 / 60, 2);
      PadInjective(a1 % 60, a2 % 60, 2);
      assert a1 == a2;
    }
  }

  /** Within years 0..9999, two days share their `%Y-%m-%d` text exactly when they are the same day. */
  lemma IsoDateInjective(d1: int, d2: int)
    requires 0 <= CivilFromDays(d1).year < 10000 && 0 <= CivilFromDays(d2).year < 10000
    ensures IsoDate(d1) == IsoDate(d2) <==> d1 == d2
  {
    if IsoDate(d1) == IsoDate(d2) {
      var c1, c2 := CivilFromDays(d1), CivilFromDays(d2);
      var s1, s2 := IsoDate(d1), IsoDate(d2);
      assert s1[..4] == Pad(c1.year, 4) && s2[..4] == Pad(c2.year, 4);
      assert s1[5..7] == Pad(c1.month, 2) && s2[5..7] == Pad(c2.month, 2);
      assert s1[8..] == Pad(c1.day, 2) && s2[8..] == Pad(c2.day, 2);
      assert Pow10(4) == 10000 && Pow10(2) == 100;
      PadInjective(c1.year, c2.year, 4);
      PadInjective(c1.month, c2.month, 2);
      PadInjective(c1.day, c2.day, 2);
      CivilInjective(d1, d2);
    }
  }
}

=== FILE: common.dfy ===
/**
 * Building blocks shared by the model: optional values, the exceptions the
 * source raises, and the Python list operations it relies on (`list.index`,
 * slicing with Python's index rules, comprehension filters).
 */
module Common {

  datatype Option<+T> = None | Some(value: T)

  /** The Python exceptions the modelled code can raise. */
  datatype Error =
    | KeyError(key: string)
    | ValueError(reason: string)
    | IndexError(reason: string)
    | TypeError(reason: string)
    | AttributeError(reason: string)

  datatype Result<+T> = Ok(value: T) | Err(error: Error)

  // ---------------------------------------------------------------------
  // list.index
  // ---------------------------------------------------------------------

  /** `s.index(x)`: the first position of `x`, or None where Python raises ValueError. */
  function IndexOf<T(==)>(s: seq<T>, x: T): (r: Option<nat>)
    ensures r.None? <==> x !in s
    ensures r.Some? ==> r.value < |s| && s[r.value] == x
    ensures r.Some? ==> forall j :: 0 <= j < r.value ==> s[j] != x
  {
    if |s| == 0 then None
    else if s[0] == x then Some(0)
    else match IndexOf(s[1..], x)
      case None => None
      case Some(k) => Some(k + 1)
  }

  // ---------------------------------------------------------------------
  // Slicing: s[i:j] with Python's rules for negative and large bounds
  // ---------------------------------------------------------------------

  /** Where a slice bound `i` lands in a list of length `n`. */
  function SliceBound(i: int, n: nat): (k: nat)
    ensures k <= n
    ensures 0 <= i <= n ==> k == i
    ensures i < 0 && i + n >= 0 ==> k == n + i
    ensures i > n ==> k == n
    ensures i + n < 0 ==> k == 0
  {
    if i < 0 then (if i + n < 0 then 0 else i + n) else if i > n then n else i
  }

  /** `s[i:j]` as Python computes it. */
  function PySlice<T>(s: seq<T>, i: int, j: int): (r: seq<T>)
    ensures 0 <= i <= j <= |s| ==> r == s[i..j]
    ensures 0 <= i <= |s| && j > |s| ==> r == s[i..]
    ensures 0 <= i < |s| && j == -1 ==> r == s[i..|s| - 1]
    ensures SliceBound(j, |s|) <= SliceBound(i, |s|) ==> r == []
    ensures SliceBound(i, |s|) < SliceBound(j, |s|) ==> r == s[SliceBound(i, |s|)..SliceBound(j, |s|)]
    ensures |r| <= |s| && forall x :: x in r ==> x in s
  {
    var lo, hi := SliceBound(i, |s|), SliceBound(j, |s|);
    if hi <= lo then [] else
      assert forall x :: x in s[lo..hi] ==> x in s by {
        forall x | x in s[lo..hi] ensures x in s {
          var k :| 0 <= k < hi - lo && s[lo..hi][k] == x;
          assert s[lo + k] == x;
        }
      }
      s[lo..hi]
  }

  // ---------------------------------------------------------------------
  // Comprehension filters: [x for x in s if p(x)]
  // ---------------------------------------------------------------------

  function Filter<T>(s: seq<T>, p: T -> bool): (r: seq<T>)
    ensures |r| <= |s|
    ensures forall x :: x in r ==> x in s && p(x)
  {
    if |s| == 0 then [] else Filter(s[..|s| - 1], p) + (if p(s[|s| - 1]) then [s[|s| - 1]] else [])
  }

  /** The positions of `s` whose element passes `p`, in increasing order. */
  function Positions<T>(s: seq<T>, p: T -> bool): (ps: seq<nat>)
    ensures forall k :: 0 <= k < |ps| ==> ps[k] < |s|
  {
    if |s| == 0 then [] else Positions(s[..|s| - 1], p) + (if p(s[|s| - 1]) then [|s| - 1] else [])
  }

  predicate StrictlyIncreasing(ps: seq<nat>)
  {
    forall k, l :: 0 <= k < l < |ps| ==> ps[k] < ps[l]
  }

  /** The passing positions are increasing, and a filter keeps one element per passing position. */
  lemma {:induction false} PositionsIncreasing<T>(s: seq<T>, p: T -> bool)
    ensures |Filter(s, p)| == |Positions(s, p)|
    ensures StrictlyIncreasing(Positions(s, p))
  {
    if |s| > 0 {
      var init := s[..|s| - 1];
      PositionsIncreasing(init, p);
      var ps0 := Positions(init, p);
      assert forall k :: 0 <= k < |ps0| ==> ps0[k] < |init|;
    }
  }

  /** The k-th kept element is the element at the k-th passing position. */
  lemma {:induction false} FilterAtPositions<T>(s: seq<T>, p: T -> bool)
    ensures |Filter(s, p)| == |Positions(s, p)|
    ensures forall k :: 0 <= k < |Positions(s, p)| ==> Filter(s, p)[k] == s[Positions(s, p)[k]]
  {
    if |s| > 0 {
      var init, last := s[..|s| - 1], s[|s| - 1];
      FilterAtPositions(init, p);
      var ps0, kept0 := Positions(init, p), Filter(init, p);
      var ps, kept := Positions(s, p), Filter(s, p);
      assert ps == ps0 + (if p(last) then [|s| - 1] else []);
      assert kept == kept0 + (if p(last) then [last] else []);
      forall k | 0 <= k < |ps0|
        ensures kept[k] == s[ps[k]]
      {
        assert kept[k] == kept0[k] && ps[k] == ps0[k];
        assert s[ps0[k]] == init[ps0[k]];
      }
    }
  }

  /** A position is listed exactly when its element passes. */
  lemma {:induction false} PositionsExact<T>(s: seq<T>, p: T -> bool)
    ensures forall i :: 0 <= i < |s| ==> (i in Positions(s, p) <==> p(s[i]))
  {
    if |s| > 0 {
      var init, last := s[..|s| - 1], s[|s| - 1];
      PositionsExact(init, p);
      var ps0, ps := Positions(init, p), Positions(s, p);
      assert ps == ps0 + (if p(last) then [|s| - 1] else []);
      forall i | 0 <= i < |s| - 1
        ensures i in ps <==> p(s[i])
      {
        assert s[i] == init[i];
      }
      assert |s| - 1 !in ps0;
    }
  }

  /**
   * A filter keeps exactly the elements that pass, in their original order: it is
   * `s` read at the increasing list of passing positions, and a position is in that
   * list exactly when its element passes.
   */
  lemma FilterExact<T>(s: seq<T>, p: T -> bool)
    ensures var ps := Positions(s, p);
            && |Filter(s, p)| == |ps|
            && StrictlyIncreasing(ps)
            && (forall k :: 0 <= k < |ps| ==> Filter(s, p)[k] == s[ps[k]])
            && (forall i :: 0 <= i < |s| ==> (i in ps <==> p(s[i])))
  {
    PositionsIncreasing(s, p);
    FilterAtPositions(s, p);
    PositionsExact(s, p);
  }

  /** Every element of `s` that passes is kept. */
  lemma {:induction false} FilterKeepsPassing<T>(s: seq<T>, p: T -> bool)
    ensures forall x :: x in s && p(x) ==> x in Filter(s, p)
  {
    if |s| > 0 {
      var init := s[..|s| - 1];
      FilterKeepsPassing(init, p);
      assert forall x :: x in s ==> x in init || x == s[|s| - 1];
    }
  }

  function Map<T, U>(s: seq<T>, f: T -> U): (r: seq<U>)
    ensures |r| == |s|
    ensures forall i :: 0 <= i < |s| ==> r[i] == f(s[i])
  {
    seq(|s|, i requires 0 <= i < |s| => f(s[i]))
  }

  lemma MapConcat<T, U>(a: seq<T>, b: seq<T>, f: T -> U)
    ensures Map(a + b, f) == Map(a, f) + Map(b, f)
  {
  }

  /** Taking one element out of a sequence takes its image out of the mapped elements. */
  lemma MapRemove<T, U>(b: seq<T>, j: nat, f: T -> U)
    requires j < |b|
    ensures multiset(Map(b, f)) == multiset(Map(b[..j] + b[j + 1..], f)) + multiset{f(b[j])}
  {
    var front, back := b[..j], b[j + 1..];
    assert b == front + [b[j]] + back;
    MapConcat(front + [b[j]], back, f);
    MapConcat(front, [b[j]], f);
    MapConcat(front, back, f);
  }

  lemma RemoveOne<T>(b: seq<T>, j: nat)
    requires j < |b|
    ensures multiset(b[..j] + b[j + 1..]) == multiset(b) - multiset{b[j]}
  {
    assert b == b[..j] + [b[j]] + b[j + 1..];
  }

  /** Mapping two sequences with the same elements gives sequences with the same elements. */
  lemma {:induction false} MapPreservesMultiset<T, U>(a: seq<T>, b: seq<T>, f: T -> U)
    requires multiset(a) == multiset(b)
    ensures multiset(Map(a, f)) == multiset(Map(b, f))
  {
    if |a| == 0 {
      assert |b| == |multiset(b)| == 0;
    } else {
      var j := |a| - 1;
      var x := a[j];
      assert x in multiset(b);
      var k :| 0 <= k < |b| && b[k] == x;
      RemoveOne(a, j);
      RemoveOne(b, k);
      assert a[..j] + a[j + 1..] == a[..j];
      MapPreservesMultiset(a[..j], b[..k] + b[k + 1..], f);
      MapRemove(a, j, f);
      MapRemove(b, k, f);
    }
  }

  predicate Distinct<T(==)>(s: seq<T>)
  {
    forall i, j :: 0 <= i < j < |s| ==> s[i] != s[j]
  }
}

=== FILE: plot_heatmap.dfy ===
/**
 * The decisions `_plot_heatmap` makes before and around drawing
 * (src/cr_smps/analysis/plotting/plot_heatmap.py): how a time selector becomes an
 * x-axis window, a caption, a file name and a row filter; which records are
 * drawn and how their concentrations are floored for the colour scale; and how
 * fine the time ticks are.
 */
module Heatmap {
  import opened Common
  import opened Calendar
  import opened SmpsRecord

  // ---------------------------------------------------------------------
  // Selectors
  // ---------------------------------------------------------------------

  /**
   * One end of a selector: a text that `pd.to_datetime` parses, or a Timestamp
   * already, given by its wall-clock reading and, when it is zone-aware, its UTC
   * offset in minutes.
   */
  datatype When = Written(s: string) | Moment(t: int, offset: Option<UtcOffset>)

  /** The `time_range` argument. */
  datatype Selector =
    | AllTime                                 // None
    | OneDate(w: When)                        // a str, a Timestamp or a datetime
    | Items(items: seq<When>, shown: string)  // a tuple or a list; `shown` is its str()
    | Other(shown: string)                    // any other value; `shown` is its str()

  const ShapeMessage: string := "time_range must be None, a single date, or a (start, end) tuple."
  const OrderMessage: string := "Start date must be earlier than end date."

  /** `pd.to_datetime` of one end; `parse` is None on a text pandas rejects. */
  function ToInstant(w: When, parse: string -> Option<int>): (r: Result<int>)
    ensures w.Moment? ==> r == Ok(w.t)
    ensures w.Written? ==> (r.Ok? <==> parse(w.s).Some?) && (r.Ok? ==> r.value == parse(w.s).value)
  {
    match w
    case Moment(t, _) => Ok(t)
    case Written(s) =>
      match parse(s)
      case Some(t) => Ok(t)
      case None => Err(ValueError("could not parse '" + s + "' as a date"))
  }

  /** A parsed end of a range: its wall-clock reading, and its UTC offset when it is zone-aware. */
  datatype Stamp = Stamp(t: int, offset: Option<UtcOffset>)

  /** `pd.to_datetime` of one end, keeping whether it is zone-aware. */
  function StampOf(w: When, parse: string -> Option<int>): (r: Result<Stamp>)
    ensures r.Ok? <==> ToInstant(w, parse).Ok?
    ensures r.Ok? ==> r.value.t == ToInstant(w, parse).value
    ensures r.Ok? ==> r.value.offset == (if w.Moment? then w.offset else None)
  {
    match ToInstant(w, parse)
    case Err(e) => Err(e)
    case Ok(t) => Ok(Stamp(t, if w.Moment? then w.offset else None))
  }

  /** The instant of a zone-aware stamp on the UTC scale. */
  function Utc(a: Stamp): int
    requires a.offset.Some?
  {
    a.t - a.offset.value * 60_000_000
  }

  const AwarenessMessage: string := "Cannot compare tz-naive and tz-aware timestamps"

  /**
   * `start >= end`: naive stamps compare their readings, zone-aware ones their
   * UTC instants, and a naive stamp against a zone-aware one raises TypeError.
   */
  function NotBefore(a: Stamp, b: Stamp): (r: Result<bool>)
    ensures r.Err? <==> a.offset.Some? != b.offset.Some?
    ensures r.Err? ==> r.error == TypeError(AwarenessMessage)
    ensures r.Ok? && a.offset.None? ==> r.value == (a.t >= b.t)
    ensures r.Ok? && a.offset.Some? ==> r.value == (Utc(a) >= Utc(b))
  {
    match (a.offset, b.offset)
    case (None, None) => Ok(a.t >= b.t)
    case (Some(_), Some(_)) => Ok(Utc(a) >= Utc(b))
    case _ => Err(TypeError(AwarenessMessage))
  }

  // ---------------------------------------------------------------------
  // Row filters
  // ---------------------------------------------------------------------

  /**
   * The row filter `mask_func` builds. A range remembers whether its ends are
   * zone-aware: pandas compares it only with an index of the same kind.
   */
  datatype Mask = AllRows | OnDate(day: int) | Between(lo: int, hi: int, aware: bool)

  /** Whether a row with index instant `t` (None is NaT) is selected; NaT only passes the "all" filter. */
  predicate Passes(m: Mask, t: Option<int>)
  {
    match m
    case AllRows => true
    case OnDate(d) => t.Some? && Day(t.value) == d
    case Between(lo, hi, _) => t.Some? && lo <= t.value <= hi
  }

  // ---------------------------------------------------------------------
  // Day windows
  // ---------------------------------------------------------------------

  /** `pd.Timestamp.min.time()`, 00:12:43.145224, in microseconds after midnight. */
  const TimestampMinClock: int := 763_145_224
  /** `pd.Timestamp.max.time()`, 23:47:16.854775, in microseconds after midnight. */
  const TimestampMaxClock: int := 85_636_854_775

  /**
   * How a date is widened to a window: as written, by combining it with the times
   * of day of `pd.Timestamp.min` and `pd.Timestamp.max`; as intended, to the whole day.
   */
  datatype DayFit = TimestampClockBounds | WholeDay

  function DayWindow(fit: DayFit, d: int): (w: (int, int))
    ensures DayStart(d) <= w.0 < w.1 <= DayEnd(d)
    ensures fit.WholeDay? ==> forall t :: w.0 <= t <= w.1 <==> Day(t) == d
    ensures fit.TimestampClockBounds? ==> Day(w.0) == d && TimeOfDay(w.0) == TimestampMinClock
    ensures fit.TimestampClockBounds? ==> Day(w.1) == d && TimeOfDay(w.1) == TimestampMaxClock
  {
    DayBounds(d);
    match fit
    case TimestampClockBounds =>
      DayOfBounds(DayStart(d) + TimestampMinClock, d);
      DayOfBounds(DayStart(d) + TimestampMaxClock, d);
      (DayStart(d) + TimestampMinClock, DayStart(d) + TimestampMaxClock)
    case WholeDay => (DayStart(d), DayEnd(d))
  }

  // ---------------------------------------------------------------------
  // Resolving a selector
  // ---------------------------------------------------------------------

  /**
   * What a selector resolves to: `xlim`, `time_str`, `fname` and `mask_func`;
   * `offsets` holds the UTC offsets of the window's ends when they are zone-aware.
   */
  datatype Resolution = Resolution(xlim: Option<(int, int)>, caption: string, fname: string, mask: Mask,
                                   offsets: Option<(UtcOffset, UtcOffset)>)

  /**
   * The axis window of a two-item selector whose ends are in order: the ends
   * themselves, unless both are midnights, when the window runs from the first
   * date to the second, each widened as `fit` says.
   */
  function RangeWindow(s: int, e: int, fit: DayFit): (w: (int, int))
    ensures !(AtMidnight(s) && AtMidnight(e)) ==> w == (s, e)
    ensures AtMidnight(s) && AtMidnight(e) ==> Day(w.0) == Day(s) && Day(w.1) == Day(e)
    ensures AtMidnight(s) && AtMidnight(e) && s < e ==> w.0 <= w.1
    ensures AtMidnight(s) && AtMidnight(e) && fit.WholeDay? ==>
              forall t :: w.0 <= t <= w.1 <==> Day(s) <= Day(t) <= Day(e)
  {
    if AtMidnight(s) && AtMidnight(e) then
      assert s < e ==> Day(s) <= Day(e) by { if s < e { DayMonotone(s, e); } }
      DaySpan(Day(s), Day(e));
      (DayWindow(fit, Day(s)).0, DayWindow(fit, Day(e)).1)
    else (s, e)
  }

  /**
   * The two ends of a two-item selector, once both are parsed. The order test
   * raises TypeError when one end is zone-aware and the other is not. Two
   * midnights are widened by `Timestamp.combine`, which drops the zone, so only
   * a range that is not widened keeps its ends' awareness.
   */
  function RangeResolution(s: Stamp, e: Stamp, fit: DayFit): (r: Result<Resolution>)
    ensures r.Err? <==> NotBefore(s, e) != Ok(false)
    ensures NotBefore(s, e).Err? ==> r == Err(TypeError(AwarenessMessage))
    ensures NotBefore(s, e) == Ok(true) ==> r == Err(ValueError(OrderMessage))
    ensures r.Ok? ==> s.offset.Some? == e.offset.Some?
    ensures r.Ok? ==> r.value.xlim == Some(RangeWindow(s.t, e.t, fit))
    ensures r.Ok? ==>
              r.value.mask == Between(r.value.xlim.value.0, r.value.xlim.value.1,
                                      s.offset.Some? && !(AtMidnight(s.t) && AtMidnight(e.t)))
    ensures r.Ok? && r.value.mask.aware ==> r.value.offsets == Some((s.offset.value, e.offset.value))
    ensures r.Ok? && !r.value.mask.aware ==> r.value.offsets.None?
    ensures r.Ok? && !(AtMidnight(s.t) && AtMidnight(e.t)) ==>
              r.value.caption == IsoDateTime(s.t) + " ~ " + IsoDateTime(e.t)
              && r.value.fname == "heatmap_" + CompactDateTime(s.t) + "_" + CompactDateTime(e.t) + ".png"
    ensures r.Ok? && AtMidnight(s.t) && AtMidnight(e.t) ==>
              r.value.caption == IsoDate(Day(s.t)) + " ~ " + IsoDate(Day(e.t))
              && r.value.fname == "heatmap_" + CompactDate(Day(s.t)) + "_" + CompactDate(Day(e.t)) + ".png"
  {
    match NotBefore(s, e)
    case Err(x) => Err(x)
    case Ok(true) => Err(ValueError(OrderMessage))
    case Ok(false) =>
      var w := RangeWindow(s.t, e.t, fit);
      if AtMidnight(s.t) && AtMidnight(e.t) then
        Ok(Resolution(Some(w), IsoDate(Day(s.t)) + " ~ " + IsoDate(Day(e.t)),
          "heatmap_" + CompactDate(Day(s.t)) + "_" + CompactDate(Day(e.t)) + ".png", Between(w.0, w.1, false), None))
      else
        Ok(Resolution(Some(w), IsoDateTime(s.t) + " ~ " + IsoDateTime(e.t),
          "heatmap_" + CompactDateTime(s.t) + "_" + CompactDateTime(e.t) + ".png",
          Between(w.0, w.1, s.offset.Some?),
          if s.offset.Some? then Some((s.offset.value, e.offset.value)) else None))
  }

  /** The branch chain of `_plot_heatmap`, with the given way of widening a date. */
  function ResolveUsing(sel: Selector, parse: string -> Option<int>, fit: DayFit): (r: Result<Resolution>)
    ensures sel.AllTime? ==>
              && r.Ok? && r.value.xlim.None? && r.value.caption == "All Data"
              && r.value.fname == "heatmap_all.png" && forall t :: Passes(r.value.mask, t)
    ensures sel.OneDate? ==> (r.Ok? <==> ToInstant(sel.w, parse).Ok?)
    ensures sel.OneDate? && r.Ok? ==>
              var d := Day(ToInstant(sel.w, parse).value);
              && r.value.xlim == Some(DayWindow(fit, d))
              && r.value.caption == IsoDate(d)
              && r.value.fname == "heatmap_" + IsoDate(d) + ".png"
              && r.value.offsets.None?
              && forall t :: Passes(r.value.mask, Some(t)) <==> Day(t) == d
    ensures sel.Items? && |sel.items| == 2 && ToInstant(sel.items[0], parse).Err? ==> r == Err(ToInstant(sel.items[0], parse).error)
    ensures sel.Items? && |sel.items| == 2 && ToInstant(sel.items[0], parse).Ok? && ToInstant(sel.items[1], parse).Err? ==>
              r == Err(ToInstant(sel.items[1], parse).error)
    ensures sel.Items? && |sel.items| == 2 && StampOf(sel.items[0], parse).Ok? && StampOf(sel.items[1], parse).Ok? ==>
              r == RangeResolution(StampOf(sel.items[0], parse).value, StampOf(sel.items[1], parse).value, fit)
    ensures (sel.Items? && |sel.items| != 2) || sel.Other? ==> r == Err(ValueError(ShapeMessage))
  {
    match sel
    case AllTime => Ok(Resolution(None, "All Data", "heatmap_all.png", AllRows, None))
    case OneDate(w) =>
      (match ToInstant(w, parse)
       case Err(e) => Err(e)
       case Ok(t) =>
         var d := Day(t);
         Ok(Resolution(Some(DayWindow(fit, d)), IsoDate(d), "heatmap_" + IsoDate(d) + ".png", OnDate(d), None)))
    case Items(items, _) =>
      if |items| != 2 then Err(ValueError(ShapeMessage))
      else
        (match (StampOf(items[0], parse), StampOf(items[1], parse))
         case (Err(e), _) => Err(e)
         case (_, Err(e)) => Err(e)
         case (Ok(s), Ok(e)) => RangeResolution(s, e, fit))
    case Other(_) => Err(ValueError(ShapeMessage))
  }

  /** `_plot_heatmap`'s selector handling as written, with the Timestamp.min/max times of day. */
  function ResolveAsWritten(sel: Selector, parse: string -> Option<int>): Result<Resolution>
  {
    ResolveUsing(sel, parse, TimestampClockBounds)
  }

  /** The selector handling as intended: a date stands for its whole day. */
  function Resolve(sel: Selector, parse: string -> Option<int>): Result<Resolution>
  {
    ResolveUsing(sel, parse, WholeDay)
  }

  /** With whole-day windows, every resolved filter selects exactly the rows inside the axis window. */
  lemma ResolveMaskMatchesWindow(sel: Selector, parse: string -> Option<int>)
    requires Resolve(sel, parse).Ok? && Resolve(sel, parse).value.xlim.Some?
    ensures var w := Resolve(sel, parse).value.xlim.value;
            forall t :: Passes(Resolve(sel, parse).value.mask, Some(t)) <==> w.0 <= t <= w.1
  {
  }

  /**
   * A range given as two midnights selects every row of every day from the first
   * date to the second, both included.
   */
  lemma MidnightRangeCoversWholeDays(s: Stamp, e: Stamp)
    requires NotBefore(s, e) == Ok(false) && AtMidnight(s.t) && AtMidnight(e.t)
    ensures RangeResolution(s, e, WholeDay).Ok?
    ensures !RangeResolution(s, e, WholeDay).value.mask.aware
    ensures forall t :: Passes(RangeResolution(s, e, WholeDay).value.mask, Some(t)) <==> Day(s.t) <= Day(t) <= Day(e.t)
  {
    var w := RangeWindow(s.t, e.t, WholeDay);
    assert RangeResolution(s, e, WholeDay).value.mask == Between(w.0, w.1, false);
  }

  /**
   * As written, a range of two midnights loses the rows between midnight and
   * 00:12:43.145224 of its first day: a row at 00:05 is selected by the intended
   * filter and dropped by the written one.
   */
  lemma AsWrittenRangeDropsEarlyRows(d: int)
    ensures var sel := Items([Moment(DayStart(d), None), Moment(DayStart(d + 1), None)], "");
            var t := DayStart(d) + 300_000_000;
            && ResolveAsWritten(sel, _ => None).Ok? && Resolve(sel, _ => None).Ok?
            && !Passes(ResolveAsWritten(sel, _ => None).value.mask, Some(t))
            && Passes(Resolve(sel, _ => None).value.mask, Some(t))
  {
    var s, e := DayStart(d), DayStart(d + 1);
    DayOfBounds(s, d);
    DayOfBounds(e, d + 1);
    assert AtMidnight(s) && AtMidnight(e);
  }

  /**
   * As written, the x-axis window of a single date starts at 00:12:43.145224 and ends
   * at 23:47:16.854775, while the filter selects the whole day: rows in the first
   * twelve and the last twelve minutes are selected but fall outside the window.
   */
  lemma AsWrittenSingleDateWindowShort(d: int)
    ensures var r := ResolveAsWritten(OneDate(Moment(DayStart(d), None)), _ => None);
            && r.Ok? && r.value.xlim.Some?
            && Passes(r.value.mask, Some(DayStart(d))) && DayStart(d) < r.value.xlim.value.0
            && Passes(r.value.mask, Some(DayEnd(d))) && r.value.xlim.value.1 < DayEnd(d)
  {
    DayOfBounds(DayStart(d), d);
    DayOfBounds(DayEnd(d), d);
  }

  // ---------------------------------------------------------------------
  // Tick granularity
  // ---------------------------------------------------------------------

  /**
   * `xlim[1] - xlim[0]` in microseconds: pandas subtracts the readings of naive
   * ends and the UTC instants of zone-aware ones.
   */
  function WindowSpan(r: Resolution): (d: Option<int>)
    ensures d.None? <==> r.xlim.None?
    ensures r.xlim.Some? && r.offsets.None? ==> d == Some(r.xlim.value.1 - r.xlim.value.0)
    ensures r.xlim.Some? && r.offsets.Some? ==>
              d == Some(Utc(Stamp(r.xlim.value.1, Some(r.offsets.value.1))) - Utc(Stamp(r.xlim.value.0, Some(r.offsets.value.0))))
  {
    match (r.xlim, r.offsets)
    case (None, _) => None
    case (Some(w), None) => Some(w.1 - w.0)
    case (Some(w), Some((a, b))) => Some(Utc(Stamp(w.1, Some(b))) - Utc(Stamp(w.0, Some(a))))
  }

  /** `span.days + 1`: whole days in the window's span (rounded down, as `timedelta.days` is), plus one. */
  function TotalDays(span: int): int
  {
    span / DayMicros + 1
  }

  datatype Ticks = Hourly | Daily(minorHours: seq<int>) | Automatic

  /** Hourly ticks up to one day, daily ticks with minor ticks at 06, 12 and 18 up to twelve days, automatic beyond or without a window. */
  function TickPlan(span: Option<int>): (k: Ticks)
    ensures span.None? ==> k == Automatic
    ensures span.Some? ==> (k == Hourly <==> TotalDays(span.value) <= 1)
    ensures span.Some? ==> (k.Daily? <==> 1 < TotalDays(span.value) <= 12)
    ensures k.Daily? ==> k.minorHours == [6, 12, 18]
    ensures span.Some? ==> (k == Automatic <==> TotalDays(span.value) > 12)
  {
    match span
    case None => Automatic
    case Some(d) =>
      var n := TotalDays(d);
      if n <= 1 then Hourly else if n <= 12 then Daily([6, 12, 18]) else Automatic
  }

  /** A single-date selector always spans one day and gets hourly ticks, with either way of widening. */
  lemma SingleDateIsOneDay(w: When, parse: string -> Option<int>, fit: DayFit)
    requires ResolveUsing(OneDate(w), parse, fit).Ok?
    ensures TotalDays(WindowSpan(ResolveUsing(OneDate(w), parse, fit).value).value) == 1
    ensures TickPlan(WindowSpan(ResolveUsing(OneDate(w), parse, fit).value)) == Hourly
  {
    var d := Day(ToInstant(w, parse).value);
    var win := DayWindow(fit, d);
    assert 0 <= win.1 - win.0 < DayMicros;
  }

  /**
   * A range of two midnights counts the calendar days from the first date to the
   * second, both included, and the Timestamp.min/max times do not change the count.
   */
  lemma MidnightRangeDayCount(s: Stamp, e: Stamp, fit: DayFit)
    requires NotBefore(s, e) == Ok(false) && AtMidnight(s.t) && AtMidnight(e.t)
    ensures RangeResolution(s, e, fit).Ok?
    ensures TotalDays(WindowSpan(RangeResolution(s, e, fit).value).value) == Day(e.t) - Day(s.t) + 1
  {
    var lo := DayWindow(fit, Day(s.t)).0;
    var hi := DayWindow(fit, Day(e.t)).1;
    var span := hi - lo;
    var days := Day(e.t) - Day(s.t);
    assert DayStart(Day(e.t)) - DayStart(Day(s.t)) == days * DayMicros;
    assert days * DayMicros <= span < days * DayMicros + DayMicros;
    DivisionOfSpan(span, days);
  }

  /**
   * The span that decides the ticks is the time between the range's ends: their
   * UTC difference when they are zone-aware and kept, the readings' difference
   * otherwise.
   */
  lemma RangeSpanIsElapsed(s: Stamp, e: Stamp, fit: DayFit)
    requires RangeResolution(s, e, fit).Ok?
    ensures !(AtMidnight(s.t) && AtMidnight(e.t)) && s.offset.Some? ==>
              WindowSpan(RangeResolution(s, e, fit).value) == Some(Utc(e) - Utc(s))
    ensures !(AtMidnight(s.t) && AtMidnight(e.t)) && s.offset.None? ==>
              WindowSpan(RangeResolution(s, e, fit).value) == Some(e.t - s.t)
  {
    var r := RangeResolution(s, e, fit).value;
    if !(AtMidnight(s.t) && AtMidnight(e.t)) {
      assert r.xlim == Some((s.t, e.t)) && r.mask.aware == s.offset.Some?;
      SpanOfKeptEnds(r, s, e);
    }
  }

  /** A window that keeps two ends, with their offsets exactly when they are zone-aware, spans their elapsed time. */
  lemma SpanOfKeptEnds(r: Resolution, s: Stamp, e: Stamp)
    requires r.xlim == Some((s.t, e.t)) && s.offset.Some? == e.offset.Some?
    requires r.offsets == (if s.offset.Some? then Some((s.offset.value, e.offset.value)) else None)
    ensures s.offset.Some? ==> WindowSpan(r) == Some(Utc(e) - Utc(s))
    ensures s.offset.None? ==> WindowSpan(r) == Some(e.t - s.t)
  {
  }

  /**
   * Across a change of UTC offset the ticks follow elapsed time: from 12:00 at
   * +01:00 to 12:30 the next day at +02:00 is 23.5 hours, one day, hourly ticks,
   * although the readings lie 24.5 hours apart.
   */
  lemma AwareRangeTicksByElapsedTime(d: int)
    ensures var s := Stamp(DayStart(d) + 12 * 3_600_000_000, Some(60));
            var e := Stamp(DayStart(d + 1) + 12 * 3_600_000_000 + 1_800_000_000, Some(120));
            && RangeResolution(s, e, WholeDay).Ok?
            && e.t - s.t > DayMicros
            && TickPlan(WindowSpan(RangeResolution(s, e, WholeDay).value)) == Hourly
  {
    var s := Stamp(DayStart(d) + 12 * 3_600_000_000, Some(60));
    var e := Stamp(DayStart(d + 1) + 12 * 3_600_000_000 + 1_800_000_000, Some(120));
    DayOfBounds(s.t, d);
    assert !AtMidnight(s.t);
    RangeSpanIsElapsed(s, e, WholeDay);
  }

  lemma DivisionOfSpan(span: int, days: int)
    requires days * DayMicros <= span < days * DayMicros + DayMicros
    ensures span / DayMicros == days
  {
  }

  // ---------------------------------------------------------------------
  // Drawing: skipping and flooring
  // ---------------------------------------------------------------------

  /** The lower end of the colour scale (`cbar_min`). */
  const ColorFloor: real := 10.0

  /** `Z[Z < cbar_min] = cbar_min` on one cell; empty (NaN) cells compare false and stay. */
  function Clamp(c: Cell): (r: Cell)
    ensures r.Num? <==> c.Num?
    ensures r.Num? ==> r.x >= ColorFloor && (c.x >= ColorFloor ==> r == c) && (c.x < ColorFloor ==> r.x == ColorFloor)
    ensures !c.Num? ==> r == c
  {
    if c.Num? && c.x < ColorFloor then Num(ColorFloor) else c
  }

  /** What one record contributes to the drawing: the selected instants, the diameters and the floored values, diameter by instant. */
  datatype Block = Block(times: seq<Option<int>>, diameters: seq<string>, z: seq<seq<Cell>>)

  /** The filter as a test on index entries. */
  function PassTest(m: Mask): Option<int> -> bool
  {
    t => Passes(m, t)
  }

  /** The positions of the rows the filter selects (`df.loc[mask]`): exactly the passing rows, in order. */
  function Selected(f: Frame, m: Mask): (ps: seq<nat>)
    ensures forall k :: 0 <= k < |ps| ==> ps[k] < |f.index|
    ensures StrictlyIncreasing(ps)
    ensures forall i :: 0 <= i < |f.index| ==> (i in ps <==> Passes(m, f.index[i]))
    ensures |ps| == 0 <==> forall i :: 0 <= i < |f.index| ==> !Passes(m, f.index[i])
  {
    FilterExact(f.index, PassTest(m));
    var ps := Positions(f.index, PassTest(m));
    assert forall i :: 0 <= i < |f.index| ==> (PassTest(m)(f.index[i]) <==> Passes(m, f.index[i]));
    assert |ps| > 0 ==> ps[0] in ps;
    ps
  }

  /** The index entries of the selected rows. */
  function SelectedTimes(f: Frame, ps: seq<nat>): (ts: seq<Option<int>>)
    requires forall k :: 0 <= k < |ps| ==> ps[k] < |f.index|
    ensures |ts| == |ps| && forall k :: 0 <= k < |ps| ==> ts[k] == f.index[ps[k]]
  {
    seq(|ps|, k requires 0 <= k < |ps| => f.index[ps[k]])
  }

  /** The value block `df.values.T` of the selected rows, floored cell by cell. */
  function FlooredBlock(f: Frame, ps: seq<nat>): (z: seq<seq<Cell>>)
    requires f.Valid() && forall k :: 0 <= k < |ps| ==> ps[k] < |f.rows|
    ensures |z| == |f.columns| && forall j :: 0 <= j < |z| ==> |z[j]| == |ps|
    ensures forall j, i :: 0 <= j < |f.columns| && 0 <= i < |ps| ==>
              (assert f.rows[ps[i]] in f.rows; z[j][i] == Clamp(f.rows[ps[i]][j]))
  {
    seq(|f.columns|, j requires 0 <= j < |f.columns| =>
      seq(|ps|, i requires 0 <= i < |ps| => assert f.rows[ps[i]] in f.rows; Clamp(f.rows[ps[i]][j])))
  }

  /** Some selected cell holds text, which the floor comparison rejects. */
  predicate HasText(f: Frame, ps: seq<nat>)
    requires f.Valid() && forall k :: 0 <= k < |ps| ==> ps[k] < |f.rows|
  {
    exists i, j :: 0 <= i < |ps| && 0 <= j < |f.columns| && (assert f.rows[ps[i]] in f.rows; f.rows[ps[i]][j].Text?)
  }

  const ZoneComparisonMessage: string := "Invalid comparison between a zone-aware index and a naive Timestamp"
  const NaiveIndexMessage: string := "Invalid comparison between a naive index and a zone-aware Timestamp"
  const TextComparisonMessage: string := "'<' not supported between instances of 'str' and 'float'"

  /** A range filter meets an index of the other kind: one is zone-aware, the other naive. */
  predicate Mismatch(zoned: bool, m: Mask)
  {
    m.Between? && m.aware != zoned
  }

  /**
   * One pass of the drawing loop: a range filter whose bounds differ in
   * awareness from the record's index raises TypeError; a record with no
   * selected row is skipped (None); a text cell in the selected block raises
   * TypeError at the floor comparison.
   */
  function BlockOf(f: Frame, zoned: bool, m: Mask): (r: Result<Option<Block>>)
    requires f.Valid()
    ensures Mismatch(zoned, m) && zoned ==> r == Err(TypeError(ZoneComparisonMessage))
    ensures Mismatch(zoned, m) && !zoned ==> r == Err(TypeError(NaiveIndexMessage))
    ensures r == Ok(None) <==> !Mismatch(zoned, m) && forall i :: 0 <= i < |f.index| ==> !Passes(m, f.index[i])
    ensures !Mismatch(zoned, m) && |Selected(f, m)| > 0 ==> (r.Err? <==> HasText(f, Selected(f, m)))
    ensures r.Err? && !Mismatch(zoned, m) ==> r.error == TypeError(TextComparisonMessage)
    ensures r.Ok? && r.value.Some? ==> |r.value.value.times| > 0 && r.value.value.diameters == f.columns
  {
    if Mismatch(zoned, m) then
      Err(TypeError(if zoned then ZoneComparisonMessage else NaiveIndexMessage))
    else
      var ps := Selected(f, m);
      if |ps| == 0 then Ok(None)
      else if HasText(f, ps) then Err(TypeError(TextComparisonMessage))
      else Ok(Some(Block(SelectedTimes(f, ps), f.columns, FlooredBlock(f, ps))))
  }

  /**
   * Block `b` is the frame read at positions `ps`: the instants of those rows in
   * their order, every diameter, and each cell floored, diameter by instant.
   */
  predicate Shows(f: Frame, ps: seq<nat>, b: Block)
    requires f.Valid() && forall k :: 0 <= k < |ps| ==> ps[k] < |f.rows|
  {
    && |b.times| == |ps|
    && (forall i :: 0 <= i < |ps| ==> b.times[i] == f.index[ps[i]])
    && b.diameters == f.columns
    && |b.z| == |f.columns|
    && (forall j :: 0 <= j < |f.columns| ==> |b.z[j]| == |ps|)
    && (forall j, i :: 0 <= j < |f.columns| && 0 <= i < |ps| ==>
          (assert f.rows[ps[i]] in f.rows; b.z[j][i] == Clamp(f.rows[ps[i]][j])))
  }

  /**
   * A drawn block holds exactly the selected rows in their order, and every value
   * at or above the floor is unchanged while every value below it is raised to it.
   */
  lemma BlockOfContents(f: Frame, zoned: bool, m: Mask)
    requires f.Valid() && BlockOf(f, zoned, m).Ok? && BlockOf(f, zoned, m).value.Some?
    ensures Shows(f, Selected(f, m), BlockOf(f, zoned, m).value.value)
  {
    var ps := Selected(f, m);
    assert !Mismatch(zoned, m) && |ps| > 0 && !HasText(f, ps);
    ShowsBuilt(f, ps);
  }

  /** The block built from the selected instants and the floored values shows those rows. */
  lemma ShowsBuilt(f: Frame, ps: seq<nat>)
    requires f.Valid() && forall k :: 0 <= k < |ps| ==> ps[k] < |f.rows|
    ensures Shows(f, ps, Block(SelectedTimes(f, ps), f.columns, FlooredBlock(f, ps)))
  {
  }

  /** Every record's frame and whether it carries a zone, in list order. */
  datatype Source = Source(frame: Frame, zoned: bool)

  predicate AllValid(srcs: seq<Source>)
  {
    forall k :: 0 <= k < |srcs| ==> srcs[k].frame.Valid()
  }

  /** What one more record adds to the outcome of the loop so far. */
  function Step(acc: Result<seq<Block>>, s: Source, m: Mask): Result<seq<Block>>
    requires s.frame.Valid()
  {
    match acc
    case Err(e) => Err(e)
    case Ok(bs) =>
      match BlockOf(s.frame, s.zoned, m)
      case Err(e) => Err(e)
      case Ok(None) => Ok(bs)
      case Ok(Some(b)) => Ok(bs + [b])
  }

  /** The drawing loop over the records: the first error stops it; skipped records add nothing. */
  function Plotted(srcs: seq<Source>, m: Mask): (r: Result<seq<Block>>)
    requires AllValid(srcs)
    ensures r.Ok? ==> |r.value| <= |srcs|
  {
    if |srcs| == 0 then Ok([])
    else Step(Plotted(srcs[..|srcs| - 1], m), srcs[|srcs| - 1], m)
  }

  /** The record has at least one row the filter selects. */
  function SelectsSomething(m: Mask): Source -> bool
  {
    (s: Source) => exists i :: 0 <= i < |s.frame.index| && Passes(m, s.frame.index[i])
  }

  /** A record that does not fail is skipped exactly when the filter selects none of its rows. */
  lemma BlockOfSkips(s: Source, m: Mask)
    requires s.frame.Valid() && BlockOf(s.frame, s.zoned, m).Ok?
    ensures BlockOf(s.frame, s.zoned, m).value.None? <==> !SelectsSomething(m)(s)
  {
    if !SelectsSomething(m)(s) {
      assert forall i :: 0 <= i < |s.frame.index| ==> !Passes(m, s.frame.index[i]);
    }
  }

  /** One block is drawn per record with a selected row: the records without one are skipped. */
  lemma {:induction false} PlottedSkipsEmpty(srcs: seq<Source>, m: Mask)
    requires AllValid(srcs) && Plotted(srcs, m).Ok?
    ensures |Plotted(srcs, m).value| == |Filter(srcs, SelectsSomething(m))|
  {
    if |srcs| > 0 {
      var init, last := srcs[..|srcs| - 1], srcs[|srcs| - 1];
      assert AllValid(init);
      var acc := Plotted(init, m);
      assert acc.Ok? && BlockOf(last.frame, last.zoned, m).Ok?;
      PlottedSkipsEmpty(init, m);
      BlockOfSkips(last, m);
    }
  }

  /** Record `s` draws block `b`. */
  predicate Draws(s: Source, m: Mask, b: Block)
  {
    s.frame.Valid() && BlockOf(s.frame, s.zoned, m) == Ok(Some(b))
  }

  /** `bs` holds, in order, the block each of `srcs` draws: one per record. */
  predicate DrawsEach(srcs: seq<Source>, bs: seq<Block>, m: Mask)
  {
    |bs| == |srcs| && forall k :: 0 <= k < |srcs| ==> Draws(srcs[k], m, bs[k])
  }

  /**
   * The drawn blocks are, in list order, the blocks of exactly the records with a
   * selected row: the k-th drawn block is what the k-th such record draws.
   */
  lemma {:induction false} PlottedBlocks(srcs: seq<Source>, m: Mask)
    requires AllValid(srcs) && Plotted(srcs, m).Ok?
    ensures DrawsEach(Filter(srcs, SelectsSomething(m)), Plotted(srcs, m).value, m)
  {
    if |srcs| > 0 {
      var init, last := srcs[..|srcs| - 1], srcs[|srcs| - 1];
      assert AllValid(init);
      var acc := Plotted(init, m);
      var r := BlockOf(last.frame, last.zoned, m);
      assert acc.Ok? && r.Ok?;
      PlottedBlocks(init, m);
      BlockOfSkips(last, m);
      var kept0 := Filter(init, SelectsSomething(m));
      assert Filter(srcs, SelectsSomething(m)) == kept0 + (if SelectsSomething(m)(last) then [last] else []);
      if r.value.Some? {
        assert Plotted(srcs, m).value == acc.value + [r.value.value];
        DrawsEachAppend(kept0, acc.value, last, r.value.value, m);
      } else {
        assert Plotted(srcs, m).value == acc.value;
        assert Filter(srcs, SelectsSomething(m)) == kept0;
      }
    }
  }

  /** One more record with a drawn block extends both lists in step. */
  lemma DrawsEachAppend(srcs: seq<Source>, bs: seq<Block>, s: Source, b: Block, m: Mask)
    requires DrawsEach(srcs, bs, m)
    requires Draws(s, m, b)
    ensures DrawsEach(srcs + [s], bs + [b], m)
  {
    var ss, bb := srcs + [s], bs + [b];
    forall k | 0 <= k < |ss|
      ensures Draws(ss[k], m, bb[k])
    {
      if k < |srcs| {
        assert ss[k] == srcs[k] && bb[k] == bs[k];
      }
    }
  }

  /** No value of the block is below the floor of the colour scale. */
  predicate Floored(b: Block)
  {
    forall j, i :: 0 <= j < |b.z| && 0 <= i < |b.z[j]| && b.z[j][i].Num? ==> b.z[j][i].x >= ColorFloor
  }

  lemma BlockFloored(f: Frame, zoned: bool, m: Mask)
    requires f.Valid()
    ensures BlockOf(f, zoned, m).Ok? && BlockOf(f, zoned, m).value.Some? ==> Floored(BlockOf(f, zoned, m).value.value)
  {
    var r := BlockOf(f, zoned, m);
    if r.Ok? && r.value.Some? {
      BlockOfContents(f, zoned, m);
      ShowsFloored(f, Selected(f, m), r.value.value);
    }
  }

  /** A block read from a frame with the floor applied has no value below the floor. */
  lemma ShowsFloored(f: Frame, ps: seq<nat>, b: Block)
    requires f.Valid() && forall k :: 0 <= k < |ps| ==> ps[k] < |f.rows|
    requires Shows(f, ps, b)
    ensures Floored(b)
  {
    forall j: int, i: int | 0 <= j < |b.z| && 0 <= i < |b.z[j]| && b.z[j][i].Num?
      ensures b.z[j][i].x >= ColorFloor
    {
      assert f.rows[ps[i]] in f.rows;
      assert b.z[j][i] == Clamp(f.rows[ps[i]][j]);
    }
  }

  /** No drawn value is below the floor of the colour scale. */
  lemma {:induction false} PlottedFloored(srcs: seq<Source>, m: Mask)
    requires AllValid(srcs) && Plotted(srcs, m).Ok?
    ensures AllFloored(Plotted(srcs, m).value)
  {
    if |srcs| > 0 {
      var init, last := srcs[..|srcs| - 1], srcs[|srcs| - 1];
      assert AllValid(init);
      PlottedFloored(init, m);
      StepFloored(Plotted(init, m), last, m);
    }
  }

  /** One more record keeps every drawn block floored. */
  lemma StepFloored(acc: Result<seq<Block>>, s: Source, m: Mask)
    requires s.frame.Valid() && (acc.Ok? ==> AllFloored(acc.value))
    ensures Step(acc, s, m).Ok? ==> AllFloored(Step(acc, s, m).value)
  {
    if acc.Ok? {
      var r := BlockOf(s.frame, s.zoned, m);
      BlockFloored(s.frame, s.zoned, m);
      if r.Ok? {
        var added := if r.value.Some? then [r.value.value] else [];
        assert Step(acc, s, m).value == acc.value + added;
        AllFlooredAppend(acc.value, added);
      }
    }
  }

  predicate AllFloored(bs: seq<Block>)
  {
    forall k :: 0 <= k < |bs| ==> Floored(bs[k])
  }

  lemma AllFlooredAppend(bs: seq<Block>, more: seq<Block>)
    requires AllFloored(bs) && AllFloored(more)
    ensures AllFloored(bs + more)
  {
    forall k | 0 <= k < |bs + more|
      ensures Floored((bs + more)[k])
    {
      if k < |bs| {
        assert (bs + more)[k] == bs[k];
      } else {
        assert (bs + more)[k] == more[k - |bs|];
      }
    }
  }

  /** `Z[Z < cbar_min] = cbar_min`, in place. */
  method ClampInPlace(z: array2<Cell>)
    modifies z
    ensures forall j, i :: 0 <= j < z.Length0 && 0 <= i < z.Length1 ==> z[j, i] == Clamp(old(z[j, i]))
  {
    for j := 0 to z.Length0
      invariant forall j', i :: 0 <= j' < j && 0 <= i < z.Length1 ==> z[j', i] == Clamp(old(z[j', i]))
      invariant forall j', i :: j <= j' < z.Length0 && 0 <= i < z.Length1 ==> z[j', i] == old(z[j', i])
    {
      for i := 0 to z.Length1
        invariant forall j', i' :: 0 <= j' < j && 0 <= i' < z.Length1 ==> z[j', i'] == Clamp(old(z[j', i']))
        invariant forall i' :: 0 <= i' < i ==> z[j, i'] == Clamp(old(z[j, i']))
        invariant forall i' :: i <= i' < z.Length1 ==> z[j, i'] == old(z[j, i'])
        invariant forall j', i' :: j < j' < z.Length0 && 0 <= i' < z.Length1 ==> z[j', i'] == old(z[j', i'])
      {
        z[j, i] := Clamp(z[j, i]);
      }
    }
  }

  function Contents(z: array2<Cell>): (s: seq<seq<Cell>>)
    reads z
    ensures |s| == z.Length0 && forall j :: 0 <= j < |s| ==> |s[j]| == z.Length1
  {
    seq(z.Length0, j requires 0 <= j < z.Length0 reads z => seq(z.Length1, i requires 0 <= i < z.Length1 reads z => z[j, i]))
  }

  /** The records' frames and zone flags. */
  function Sources(records: seq<SmpsData>): (s: seq<Source>)
    reads records
    ensures |s| == |records|
    ensures forall k :: 0 <= k < |records| ==> s[k] == Source(records[k].sampleData, records[k].timeZone.Some?)
  {
    seq(|records|, k requires 0 <= k < |records| reads records =>
      Source(records[k].sampleData, records[k].timeZone.Some?))
  }

  /** The drawing loop after one more record. */
  lemma PlottedStep(srcs: seq<Source>, k: nat, m: Mask)
    requires AllValid(srcs) && k < |srcs|
    ensures AllValid(srcs[..k]) && AllValid(srcs[..k + 1])
    ensures Plotted(srcs[..k + 1], m) == Step(Plotted(srcs[..k], m), srcs[k], m)
  {
    assert srcs[..k + 1][..k] == srcs[..k];
  }

  /** Once a record raises, the loop ends with that error whatever records follow. */
  lemma {:induction false} PlottedErrorStops(srcs: seq<Source>, j: nat, m: Mask)
    requires AllValid(srcs) && j <= |srcs|
    requires AllValid(srcs[..j]) && Plotted(srcs[..j], m).Err?
    ensures Plotted(srcs, m) == Plotted(srcs[..j], m)
  {
    if j < |srcs| {
      var init := srcs[..|srcs| - 1];
      assert init[..j] == srcs[..j];
      PlottedErrorStops(init, j, m);
    } else {
      assert srcs[..j] == srcs;
    }
  }

  /** `Z = df.values.T` for the selected rows, then the floor applied to `Z` in place. */
  method FloorSelected(f: Frame, ps: seq<nat>) returns (z: seq<seq<Cell>>)
    requires f.Valid() && forall k :: 0 <= k < |ps| ==> ps[k] < |f.rows|
    ensures z == FlooredBlock(f, ps)
  {
    var a := new Cell[|f.columns|, |ps|]((j, i) requires 0 <= j < |f.columns| && 0 <= i < |ps| =>
      assert f.rows[ps[i]] in f.rows; f.rows[ps[i]][j]);
    ClampInPlace(a);
    z := Contents(a);
    forall j | 0 <= j < |f.columns|
      ensures z[j] == FlooredBlock(f, ps)[j]
    {
    }
  }

  /** One pass of the drawing loop on one record's frame. */
  method DrawOne(f: Frame, zoned: bool, m: Mask) returns (r: Result<Option<Block>>)
    requires f.Valid()
    ensures r == BlockOf(f, zoned, m)
  {
    if Mismatch(zoned, m) {
      return Err(TypeError(if zoned then ZoneComparisonMessage else NaiveIndexMessage));
    }
    var ps := Selected(f, m);
    if |ps| == 0 {
      return Ok(None);
    }
    if HasText(f, ps) {
      return Err(TypeError(TextComparisonMessage));
    }
    var z := FloorSelected(f, ps);
    r := Ok(Some(Block(SelectedTimes(f, ps), f.columns, z)));
  }

  /** The drawing loop of `_plot_heatmap` over the records' frames, in list order. */
  method DrawSources(srcs: seq<Source>, m: Mask) returns (r: Result<seq<Block>>)
    requires AllValid(srcs)
    ensures r == Plotted(srcs, m)
  {
    var blocks: seq<Block> := [];
    for k := 0 to |srcs|
      invariant Plotted(srcs[..k], m) == Ok(blocks)
    {
      PlottedStep(srcs, k, m);
      var one := DrawOne(srcs[k].frame, srcs[k].zoned, m);
      match one
      case Err(e) =>
        PlottedErrorStops(srcs, k + 1, m);
        return Err(e);
      case Ok(None) =>
      case Ok(Some(b)) =>
        blocks := blocks + [b];
    }
    assert srcs[..|srcs|] == srcs;
    r := Ok(blocks);
  }

  /** `_plot_heatmap`'s loop over `dataset.smpsdata_list`: each record's `sample_data` and zone. */
  method DrawRecords(records: seq<SmpsData>, m: Mask) returns (r: Result<seq<Block>>)
    requires forall k :: 0 <= k < |records| ==> records[k].sampleData.Valid()
    ensures AllValid(Sources(records)) && r == Plotted(Sources(records), m)
  {
    var srcs := Sources(records);
    r := DrawSources(srcs, m);
  }

  // ---------------------------------------------------------------------
  // Where the figure goes
  // ---------------------------------------------------------------------

  /** `os.path.join(directory, name)` on POSIX. */
  function JoinPath(directory: string, name: string): (p: string)
    ensures |name| > 0 && name[0] == '/' ==> p == name
    ensures !(|name| > 0 && name[0] == '/') ==> |p| >= |directory| + |name| && p[..|directory|] == directory
    ensures !(|name| > 0 && name[0] == '/') ==> p[|p| - |name|..] == name
    ensures !(|name| > 0 && name[0] == '/') && |directory| > 0 ==> p[|p| - |name| - 1] == '/'
    ensures !(|name| > 0 && name[0] == '/') ==>
              |p| == |directory| + |name| + (if |directory| == 0 || directory[|directory| - 1] == '/' then 0 else 1)
  {
    if |name| > 0 && name[0] == '/' then name
    else if |directory| == 0 || directory[|directory| - 1] == '/' then directory + name
    else directory + "/" + name
  }

  /** The save path: joined under `output_dir` when it is given and not empty, the bare file name otherwise. */
  function SavePath(outputDir: Option<string>, fname: string): (p: string)
    ensures outputDir.None? || outputDir == Some("") ==> p == fname
    ensures outputDir.Some? && outputDir.value != "" ==> p == JoinPath(outputDir.value, fname)
    ensures outputDir.Some? && outputDir.value != "" && !(|fname| > 0 && fname[0] == '/') ==>
              && |p| >= |outputDir.value| + |fname|
              && p[..|outputDir.value|] == outputDir.value
              && p[|p| - |fname|..] == fname && p[|p| - |fname| - 1] == '/'
  {
    match outputDir
    case Some(d) => if d == "" then fname else JoinPath(d, fname)
    case None => fname
  }
}

=== FILE: reader.dfy ===
/**
 * Turning one SMPS export into a record, and a directory of exports into a list
 * of records (src/cr_smps/io/reader.py).
 *
 * The file itself is given as the pieces pandas reads from it: the first two
 * cells of its leading lines (the key/value header block), the cells of line 52
 * (the column-group sentinels) and the data table that starts on line 53. The
 * pandas date parsers, `float()` on a column label and the zone database are
 * given as parameters.
 */
module Reader {
  import opened Common
  import opened SmpsRecord
  import Sorting
  import Dataset

  const NormalScan: string := "Normal Scan"
  const DetectorStatus: string := "Detector Status"
  const ClassifierErrors: string := "Classifier Errors"
  const DateColumn: string := "DateTime Sample Start"
  const LowerSizeColumn: string := "Lower Size (nm)"
  const UpperSizeColumn: string := "Upper Size (nm)"
  const ConcentrationSentinel: string := "Particle Concentration by Midpoint (nm)"
  const RawConcentrationSentinel: string := "Raw Concentration by Midpoint (nm)"
  const RawTimeColumn: string := "Raw Data - Time (s)"
  const LowerSizeKey: string := "Lower Size (nm)"
  const UpperSizeKey: string := "Upper Size (nm)"

  /** Number of leading lines read as key/value metadata. */
  const HeaderLines: nat := 45

  /** The parts of an export that the reader takes from the file. */
  datatype CsvFile = CsvFile(
    header: seq<(string, MetaValue)>,  // cells 0 and 1 of each leading line
    line52: seq<string>,               // the cells of line 52
    columns: seq<string>,              // the column labels of the data table
    rows: seq<seq<Cell>>)              // the data rows

  /** What pandas guarantees of a table it read: distinct labels, one cell per label in every row. */
  predicate WellFormed(f: CsvFile)
  {
    Distinct(f.columns) && forall r :: r in f.rows ==> |r| == |f.columns|
  }

  /** The four explicit day-first formats, in the order they are tried. */
  datatype DateFormat =
    | DmyFull      // %d/%m/%Y %H:%M:%S
    | DmyShort     // %d/%m/%y %H:%M:%S
    | DmyFull12h   // %d/%m/%Y %I:%M:%S %p
    | DmyShort12h  // %d/%m/%y %I:%M:%S %p

  const DateFormats: seq<DateFormat> := [DmyFull, DmyShort, DmyFull12h, DmyShort12h]

  /** The library parsers the reader calls; None stands for "raised". */
  datatype Parsers = Parsers(
    withFormat: (DateFormat, string) -> Option<int>,  // pd.to_datetime(s, format=fmt, dayfirst=True)
    dayFirst: string -> Option<int>,                  // pd.to_datetime(s, dayfirst=True)
    number: string -> Option<real>)                   // float(label)

  // ---------------------------------------------------------------------
  // Row filter
  // ---------------------------------------------------------------------

  /** Both status cells of a row read "Normal Scan". */
  function NormalScanTest(ds: nat, ce: nat): seq<Cell> -> bool
  {
    r => ds < |r| && ce < |r| && r[ds] == Text(NormalScan) && r[ce] == Text(NormalScan)
  }

  /** The rows kept by the "Normal Scan" filter; a missing status column raises KeyError. */
  function KeepNormal(f: CsvFile): (r: Result<seq<seq<Cell>>>)
    ensures DetectorStatus !in f.columns ==> r == Err(KeyError(DetectorStatus))
    ensures DetectorStatus in f.columns && ClassifierErrors !in f.columns ==> r == Err(KeyError(ClassifierErrors))
    ensures r.Ok? <==> DetectorStatus in f.columns && ClassifierErrors in f.columns
    ensures r.Ok? ==> forall row :: row in r.value ==> row in f.rows
  {
    match (IndexOf(f.columns, DetectorStatus), IndexOf(f.columns, ClassifierErrors))
    case (None, _) => Err(KeyError(DetectorStatus))
    case (_, None) => Err(KeyError(ClassifierErrors))
    case (Some(ds), Some(ce)) => Ok(Filter(f.rows, NormalScanTest(ds, ce)))
  }

  /**
   * Exactly the rows whose "Detector Status" and "Classifier Errors" cells both
   * read "Normal Scan" are kept, in their original order.
   */
  lemma KeepNormalExact(f: CsvFile, ds: nat, ce: nat)
    requires WellFormed(f)
    requires ds < |f.columns| && f.columns[ds] == DetectorStatus
    requires ce < |f.columns| && f.columns[ce] == ClassifierErrors
    ensures KeepNormal(f).Ok?
    ensures var kept := KeepNormal(f).value;
            var ps := Positions(f.rows, NormalScanTest(ds, ce));
            && |kept| == |ps| && StrictlyIncreasing(ps)
            && (forall k :: 0 <= k < |ps| ==> kept[k] == f.rows[ps[k]])
            && (forall i :: 0 <= i < |f.rows| ==>
                  (i in ps <==> f.rows[i][ds] == Text(NormalScan) && f.rows[i][ce] == Text(NormalScan)))
  {
    assert IndexOf(f.columns, DetectorStatus) == Some(ds) by {
      var k := IndexOf(f.columns, DetectorStatus).value;
      assert f.columns[k] == f.columns[ds];
    }
    assert IndexOf(f.columns, ClassifierErrors) == Some(ce) by {
      var k := IndexOf(f.columns, ClassifierErrors).value;
      assert f.columns[k] == f.columns[ce];
    }
    FilterExact(f.rows, NormalScanTest(ds, ce));
    forall i | 0 <= i < |f.rows|
      ensures |f.rows[i]| == |f.columns|
    {
      assert f.rows[i] in f.rows;
    }
  }

  // ---------------------------------------------------------------------
  // Dates and zones
  // ---------------------------------------------------------------------

  /** `fmts[k]` is the first format that parses `s`. */
  predicate FirstFormat(fmts: seq<DateFormat>, s: string, p: Parsers, k: int)
  {
    && 0 <= k < |fmts|
    && p.withFormat(fmts[k], s).Some?
    && forall j :: 0 <= j < k ==> p.withFormat(fmts[j], s).None?
  }

  /** The formats of `fmts`, tried in order: the first that parses wins. */
  function TryFormats(fmts: seq<DateFormat>, s: string, p: Parsers): (r: Option<int>)
    ensures r.None? <==> forall k :: 0 <= k < |fmts| ==> p.withFormat(fmts[k], s).None?
    ensures r.Some? ==> exists k :: FirstFormat(fmts, s, p, k) && r == p.withFormat(fmts[k], s)
  {
    if |fmts| == 0 then None
    else match p.withFormat(fmts[0], s)
      case Some(t) =>
        assert FirstFormat(fmts, s, p, 0);
        Some(t)
      case None =>
        var rest := TryFormats(fmts[1..], s, p);
        assert forall k :: 1 <= k < |fmts| ==> fmts[k] == fmts[1..][k - 1];
        assert rest.Some? ==> exists k :: FirstFormat(fmts, s, p, k) && rest == p.withFormat(fmts[k], s) by {
          if rest.Some? {
            var k :| FirstFormat(fmts[1..], s, p, k) && rest == p.withFormat(fmts[1..][k], s);
            assert FirstFormat(fmts, s, p, k + 1);
          }
        }
        rest
  }

  /**
   * parse_mixed_date: an empty cell is NaT; otherwise the four day-first formats
   * are tried in order and the first that parses wins; then the permissive
   * day-first parse; a cell nothing parses is NaT. It never raises.
   */
  function ParseMixedDate(c: Cell, p: Parsers): (r: Option<int>)
    ensures !c.Text? ==> r.None?
    ensures c.Text? && TryFormats(DateFormats, c.s, p).Some? ==> r == TryFormats(DateFormats, c.s, p)
    ensures c.Text? && TryFormats(DateFormats, c.s, p).None? ==> r == p.dayFirst(c.s)
  {
    match c
    case Text(s) =>
      (match TryFormats(DateFormats, s, p)
       case Some(t) => Some(t)
       case None => p.dayFirst(s))
    case _ => None
  }

  /** What `ZoneInfo(key)` makes of a zone name. */
  datatype ZoneLookup =
    | ZoneFound                     // a zone of the database
    | ZoneNotFound                  // ZoneInfoNotFoundError, which the reader catches
    | ZoneMalformed(reason: string) // ValueError: an empty, absolute or non-normalised key

  /**
   * The zone a record is tagged with: the requested one when the zone database
   * resolves it, none when no zone is requested or the zone is unknown (reported,
   * not raised); a malformed name raises ValueError, which the reader does not catch.
   */
  function ZoneTag(requested: Option<string>, zones: string -> ZoneLookup): (r: Result<Option<string>>)
    ensures r.Err? <==> requested.Some? && zones(requested.value).ZoneMalformed?
    ensures r.Err? ==> r.error == ValueError(zones(requested.value).reason)
    ensures r.Ok? ==> (r.value.Some? <==> requested.Some? && zones(requested.value).ZoneFound?)
    ensures r.Ok? && r.value.Some? ==> r.value == requested
  {
    match requested
    case None => Ok(None)
    case Some(z) =>
      match zones(z)
      case ZoneFound => Ok(Some(z))
      case ZoneNotFound => Ok(None)
      case ZoneMalformed(reason) => Err(ValueError(reason))
  }

  // ---------------------------------------------------------------------
  // Earliest and latest instants
  // ---------------------------------------------------------------------

  /** `df.index.min()`: the earliest parsed instant, NaT when there is none. */
  function EarliestTime(ts: seq<Option<int>>): Option<int>
  {
    Sorting.OrdersArePreorders();
    Sorting.Least(ts, Sorting.IntLe)
  }

  /** `df.index.max()`. */
  function LatestTime(ts: seq<Option<int>>): Option<int>
  {
    Sorting.OrdersArePreorders();
    Sorting.Least(ts, Sorting.IntGe)
  }

  /**
   * `df.index.min()` as the metadata stores it. With no kept row, `apply` leaves
   * the date column an empty object column, whose minimum is NaN, not NaT.
   */
  function StartValue(ts: seq<Option<int>>): (v: MetaValue)
    ensures |ts| == 0 ==> v == Size(None)
    ensures |ts| > 0 ==> v == Instant(EarliestTime(ts))
  {
    if |ts| == 0 then Size(None) else Instant(EarliestTime(ts))
  }

  /** `df.index.max()` as the metadata stores it: NaN for an empty object index. */
  function EndValue(ts: seq<Option<int>>): (v: MetaValue)
    ensures |ts| == 0 ==> v == Size(None)
    ensures |ts| > 0 ==> v == Instant(LatestTime(ts))
  {
    if |ts| == 0 then Size(None) else Instant(LatestTime(ts))
  }

  // ---------------------------------------------------------------------
  // Indexing by the parsed date
  // ---------------------------------------------------------------------

  /** The kept rows after the date column became the index. */
  datatype Indexed = Indexed(times: seq<Option<int>>, columns: seq<string>, rows: seq<seq<Cell>>)

  function Drop<T>(s: seq<T>, i: nat): (r: seq<T>)
    requires i < |s|
    ensures |r| == |s| - 1
    ensures forall k :: 0 <= k < i ==> r[k] == s[k]
    ensures forall k :: i <= k < |r| ==> r[k] == s[k + 1]
  {
    s[..i] + s[i + 1..]
  }

  /** The date column parsed cell by cell. */
  function DateIndex(rows: seq<seq<Cell>>, dc: nat, p: Parsers): (ts: seq<Option<int>>)
    requires forall row :: row in rows ==> dc < |row|
    ensures |ts| == |rows|
    ensures forall i :: 0 <= i < |rows| ==> ts[i] == ParseMixedDate(rows[i][dc], p)
  {
    assert forall i :: 0 <= i < |rows| ==> rows[i] in rows;
    seq(|rows|, i requires 0 <= i < |rows| => ParseMixedDate(rows[i][dc], p))
  }

  /** Every row without its cell `dc`. */
  function DropColumn(rows: seq<seq<Cell>>, dc: nat, width: nat): (r: seq<seq<Cell>>)
    requires dc < width && forall row :: row in rows ==> |row| == width
    ensures |r| == |rows|
    ensures forall i :: 0 <= i < |rows| ==> r[i] == Drop(rows[i], dc)
    ensures forall row :: row in r ==> |row| == width - 1
  {
    assert forall i :: 0 <= i < |rows| ==> rows[i] in rows;
    var r := seq(|rows|, i requires 0 <= i < |rows| => Drop(rows[i], dc));
    assert forall row :: row in r ==> |row| == width - 1 by {
      forall row | row in r ensures |row| == width - 1 {
        var i :| 0 <= i < |r| && r[i] == row;
      }
    }
    r
  }

  /**
   * `x` is the rows `kept`, each `width` cells wide, with cell `dc` parsed into the
   * index and taken out of the row.
   */
  predicate IndexedFrom(kept: seq<seq<Cell>>, dc: nat, width: nat, p: Parsers, x: Indexed)
  {
    && |x.times| == |kept| && |x.rows| == |kept|
    && forall i :: 0 <= i < |kept| ==>
         && dc < |kept[i]| == width
         && x.times[i] == ParseMixedDate(kept[i][dc], p)
         && x.rows[i] == Drop(kept[i], dc)
  }

  /** `df.set_index` on the parsed date column `dc` of the rows `kept`. */
  function IndexBy(kept: seq<seq<Cell>>, dc: nat, columns: seq<string>, p: Parsers): (x: Indexed)
    requires dc < |columns| && forall row :: row in kept ==> |row| == |columns|
    ensures x.columns == Drop(columns, dc)
    ensures forall row :: row in x.rows ==> |row| == |x.columns|
    ensures IndexedFrom(kept, dc, |columns|, p, x)
  {
    assert forall i :: 0 <= i < |kept| ==> kept[i] in kept;
    Indexed(DateIndex(kept, dc, p), Drop(columns, dc), DropColumn(kept, dc, |columns|))
  }

  /** Filter the rows, parse the date column and make it the index. */
  function IndexRows(f: CsvFile, p: Parsers): (r: Result<Indexed>)
    requires WellFormed(f)
    ensures KeepNormal(f).Err? ==> r == Err(KeepNormal(f).error)
    ensures KeepNormal(f).Ok? && DateColumn !in f.columns ==> r == Err(KeyError(DateColumn))
    ensures r.Ok? <==> KeepNormal(f).Ok? && DateColumn in f.columns
    ensures r.Ok? ==> |r.value.times| == |r.value.rows|
    ensures r.Ok? ==> r.value.columns == Drop(f.columns, IndexOf(f.columns, DateColumn).value)
    ensures r.Ok? ==> forall row :: row in r.value.rows ==> |row| == |r.value.columns|
    ensures r.Ok? ==> IndexedFrom(KeepNormal(f).value, IndexOf(f.columns, DateColumn).value, |f.columns|, p, r.value)
  {
    match KeepNormal(f)
    case Err(e) => Err(e)
    case Ok(kept) =>
      match IndexOf(f.columns, DateColumn)
      case None => Err(KeyError(DateColumn))
      case Some(dc) =>
        assert forall row :: row in kept ==> |row| == |f.columns|;
        Ok(IndexBy(kept, dc, f.columns, p))
  }

  // ---------------------------------------------------------------------
  // Diameter columns
  // ---------------------------------------------------------------------

  /**
   * The slice bounds of the diameter columns. Line 52, with its cell 1 removed,
   * lines up with the data columns. The start is the first "Particle Concentration
   * by Midpoint (nm)" cell (ValueError when absent); the end is the "Raw
   * Concentration by Midpoint (nm)" cell, else one before the "Raw Data - Time (s)"
   * column, else -1.
   */
  function ColumnBounds(line52: seq<string>, cols: seq<string>): (r: Result<(nat, int)>)
    ensures |line52| < 2 ==> r.Err? && r.error.IndexError?
    ensures r.Ok? <==> |line52| >= 2 && ConcentrationSentinel in Drop(line52, 1)
    ensures r.Ok? ==> var l := Drop(line52, 1);
            && r.value.0 < |l| && l[r.value.0] == ConcentrationSentinel
            && (forall j :: 0 <= j < r.value.0 ==> l[j] != ConcentrationSentinel)
    ensures r.Ok? && RawConcentrationSentinel in Drop(line52, 1) ==>
            0 <= r.value.1 < |line52| - 1 && Drop(line52, 1)[r.value.1] == RawConcentrationSentinel
            && forall j :: 0 <= j < r.value.1 ==> Drop(line52, 1)[j] != RawConcentrationSentinel
    ensures r.Ok? && RawConcentrationSentinel !in Drop(line52, 1) && RawTimeColumn in cols ==>
            0 <= r.value.1 + 1 < |cols| && cols[r.value.1 + 1] == RawTimeColumn
            && forall j :: 0 <= j < r.value.1 + 1 ==> cols[j] != RawTimeColumn
    ensures r.Ok? && RawConcentrationSentinel !in Drop(line52, 1) && RawTimeColumn !in cols ==> r.value.1 == -1
  {
    if |line52| < 2 then Err(IndexError("pop index out of range"))
    else
      var l := Drop(line52, 1);
      match IndexOf(l, ConcentrationSentinel)
      case None => Err(ValueError("'" + ConcentrationSentinel + "' is not in list"))
      case Some(start) =>
        if RawConcentrationSentinel in l then Ok((start, IndexOf(l, RawConcentrationSentinel).value))
        else if RawTimeColumn in cols then Ok((start, IndexOf(cols, RawTimeColumn).value as int - 1))
        else Ok((start, -1))
  }

  /** `float(label)` for every diameter label; one that is not a number raises ValueError. */
  function Diameters(labels: seq<string>, p: Parsers): (r: Result<seq<real>>)
    ensures r.Ok? <==> forall i :: 0 <= i < |labels| ==> p.number(labels[i]).Some?
    ensures r.Ok? ==> |r.value| == |labels| && forall i :: 0 <= i < |labels| ==> p.number(labels[i]) == Some(r.value[i])
  {
    if |labels| == 0 then Ok([])
    else
      match (Diameters(labels[..|labels| - 1], p), p.number(labels[|labels| - 1]))
      case (Ok(ds), Some(d)) => Ok(ds + [d])
      case (Err(e), _) => Err(e)
      case (_, None) => Err(ValueError("could not convert string to float: '" + labels[|labels| - 1] + "'"))
  }

  /**
   * What `min()` / `max()` of a size column returns: a number, None standing for
   * NaN, or, for a column pandas read as text, a text.
   */
  datatype Bound = NumberBound(x: Option<real>) | TextBound(s: string)

  const TextAfterNumberMessage: string := "'<=' not supported between instances of 'str' and 'float'"
  const NumberAfterTextMessage: string := "'<=' not supported between instances of 'float' and 'str'"

  /**
   * `lower <= float(label) <= upper` as Python evaluates it: `float(label)` first
   * (ValueError when the label is not a number), then the lower comparison, and the
   * upper one only when the lower one holds. NaN compares false; a text bound
   * compared with a number raises TypeError.
   */
  function InBounds(name: string, lower: Bound, upper: Bound, p: Parsers): (r: Result<bool>)
    ensures p.number(name).None? ==> r.Err? && r.error.ValueError?
    ensures p.number(name).Some? && lower.TextBound? ==> r == Err(TypeError(TextAfterNumberMessage))
    ensures p.number(name).Some? && lower.NumberBound? && upper.TextBound? ==>
              r == (if lower.x.Some? && lower.x.value <= p.number(name).value
                    then Err(TypeError(NumberAfterTextMessage)) else Ok(false))
    ensures r == Ok(true) <==>
              && p.number(name).Some?
              && lower.NumberBound? && lower.x.Some? && upper.NumberBound? && upper.x.Some?
              && lower.x.value <= p.number(name).value <= upper.x.value
  {
    match p.number(name)
    case None => Err(ValueError("could not convert string to float: '" + name + "'"))
    case Some(d) =>
      match lower
      case TextBound(_) => Err(TypeError(TextAfterNumberMessage))
      case NumberBound(lo) =>
        if lo.None? || !(lo.value <= d) then Ok(false)
        else
          match upper
          case TextBound(_) => Err(TypeError(NumberAfterTextMessage))
          case NumberBound(hi) => Ok(hi.Some? && d <= hi.value)
  }

  /** The name is kept: its diameter lies in [lower, upper]. */
  function Within(lower: Bound, upper: Bound, p: Parsers): string -> bool
  {
    name => InBounds(name, lower, upper, p) == Ok(true)
  }

  /** `labels[i]` is the first label whose comparison raises, and it raises `e`. */
  predicate FirstRaise(labels: seq<string>, lower: Bound, upper: Bound, p: Parsers, i: int, e: Error)
  {
    && 0 <= i < |labels|
    && (forall j :: 0 <= j < i ==> InBounds(labels[j], lower, upper, p).Ok?)
    && InBounds(labels[i], lower, upper, p) == Err(e)
  }

  /**
   * The comprehension that keeps the sampled diameter columns: the labels whose
   * diameter lies in [lower, upper], in their original order; the first label
   * whose comparison raises stops it with that error.
   */
  function Narrow(labels: seq<string>, lower: Bound, upper: Bound, p: Parsers): (r: Result<seq<string>>)
    ensures r.Ok? <==> forall i :: 0 <= i < |labels| ==> InBounds(labels[i], lower, upper, p).Ok?
    ensures r.Err? ==> exists i :: FirstRaise(labels, lower, upper, p, i, r.error)
    ensures r.Ok? ==> r.value == Filter(labels, Within(lower, upper, p))
  {
    if |labels| == 0 then Ok([])
    else
      var init, last := labels[..|labels| - 1], labels[|labels| - 1];
      assert forall i :: 0 <= i < |init| ==> init[i] == labels[i];
      match Narrow(init, lower, upper, p)
      case Err(e) =>
        assert exists i :: FirstRaise(labels, lower, upper, p, i, e) by {
          var i :| FirstRaise(init, lower, upper, p, i, e);
          assert FirstRaise(labels, lower, upper, p, i, e);
        }
        Err(e)
      case Ok(kept) =>
        match InBounds(last, lower, upper, p)
        case Err(e) =>
          assert FirstRaise(labels, lower, upper, p, |labels| - 1, e);
          Err(e)
        case Ok(b) => Ok(kept + (if b then [last] else []))
  }

  /**
   * When nothing raises, the sampled columns are the labels at the increasing list
   * of positions whose diameter lies in [lower, upper], and only those.
   */
  lemma NarrowExact(labels: seq<string>, lower: Bound, upper: Bound, p: Parsers)
    requires Narrow(labels, lower, upper, p).Ok?
    ensures var kept, ps := Narrow(labels, lower, upper, p).value, Positions(labels, Within(lower, upper, p));
            && |kept| == |ps| && StrictlyIncreasing(ps)
            && (forall k :: 0 <= k < |ps| ==> kept[k] == labels[ps[k]])
            && (forall i :: 0 <= i < |labels| ==>
                  (i in ps <==> && p.number(labels[i]).Some?
                                && lower.NumberBound? && lower.x.Some? && upper.NumberBound? && upper.x.Some?
                                && lower.x.value <= p.number(labels[i]).value <= upper.x.value))
  {
    FilterExact(labels, Within(lower, upper, p));
  }

  /** `a` is no greater (for a minimum) or no smaller (for a maximum) than `b`. */
  predicate Beats(smallest: bool, a: real, b: real)
  {
    if smallest then a <= b else a >= b
  }

  /** The same for texts, which Python compares code point by code point. */
  predicate TextBeats(smallest: bool, a: string, b: string)
  {
    if smallest then Sorting.LexLe(a, b) else Sorting.LexLe(b, a)
  }

  /**
   * `min()` / `max()` of a size column, skipping empty cells. A column of texts
   * only gives the least (greatest) text. Text beside a number or an empty cell
   * (which pandas fills with an infinity) raises TypeError. Otherwise the result
   * is a number, NaN when the column holds none.
   */
  function ColumnExtreme(col: seq<Cell>, smallest: bool): (r: Result<Bound>)
    ensures r.Err? <==> (exists i :: 0 <= i < |col| && col[i].Text?) && (exists j :: 0 <= j < |col| && !col[j].Text?)
    ensures r.Err? ==> r.error == TypeError(TextAfterNumberMessage)
    ensures r.Ok? ==> (r.value.TextBound? <==> |col| > 0 && forall i :: 0 <= i < |col| ==> col[i].Text?)
    ensures r.Ok? && r.value.TextBound? ==>
              && Text(r.value.s) in col
              && forall i :: 0 <= i < |col| ==> col[i].Text? && TextBeats(smallest, r.value.s, col[i].s)
    ensures r.Ok? && r.value.NumberBound? ==> (r.value.x.None? <==> forall i :: 0 <= i < |col| ==> !col[i].Num?)
    ensures r.Ok? && r.value.NumberBound? && r.value.x.Some? ==>
              && Num(r.value.x.value) in col
              && forall i :: 0 <= i < |col| && col[i].Num? ==> Beats(smallest, r.value.x.value, col[i].x)
  {
    if exists i :: 0 <= i < |col| && col[i].Text? then
      if exists j :: 0 <= j < |col| && !col[j].Text? then Err(TypeError(TextAfterNumberMessage))
      else
        var ts := Texts(col);
        var m := TextExtreme(ts, smallest);
        assert Text(m) in col by {
          var i :| 0 <= i < |ts| && ts[i] == Some(m);
          assert col[i] == Text(m);
        }
        Ok(TextBound(m))
    else
      var xs := Numbers(col);
      var m := Extreme(xs, smallest);
      assert m.Some? ==> Num(m.value) in col by {
        if m.Some? {
          var i :| 0 <= i < |xs| && xs[i] == m;
          assert col[i] == Num(m.value);
        }
      }
      Ok(NumberBound(m))
  }

  /** The numbers of a column, None where the cell is empty or text. */
  function Numbers(col: seq<Cell>): (xs: seq<Option<real>>)
    ensures |xs| == |col|
    ensures forall i :: 0 <= i < |col| ==> (xs[i].Some? <==> col[i].Num?)
    ensures forall i :: 0 <= i < |col| && xs[i].Some? ==> col[i] == Num(xs[i].value)
  {
    seq(|col|, i requires 0 <= i < |col| => if col[i].Num? then Some(col[i].x) else None)
  }

  /** The least (or greatest) present number; None when none is present. */
  function Extreme(xs: seq<Option<real>>, smallest: bool): (m: Option<real>)
    ensures m.None? <==> forall i :: 0 <= i < |xs| ==> xs[i].None?
    ensures m.Some? ==> exists i :: 0 <= i < |xs| && xs[i] == m
    ensures m.Some? ==> forall i :: 0 <= i < |xs| && xs[i].Some? ==> Beats(smallest, m.value, xs[i].value)
  {
    Sorting.OrdersArePreorders();
    var m := if smallest then Sorting.Least(xs, Sorting.RealLe) else Sorting.Least(xs, Sorting.RealGe);
    assert m.Some? ==> Some(m.value) in xs;
    m
  }

  /** The texts of a column, None where the cell is not text. */
  function Texts(col: seq<Cell>): (ts: seq<Option<string>>)
    ensures |ts| == |col|
    ensures forall i :: 0 <= i < |col| ==> (ts[i].Some? <==> col[i].Text?)
    ensures forall i :: 0 <= i < |col| && ts[i].Some? ==> col[i] == Text(ts[i].value)
  {
    seq(|col|, i requires 0 <= i < |col| => if col[i].Text? then Some(col[i].s) else None)
  }

  /** The least (or greatest) present text, of a list with one present at least. */
  function TextExtreme(ts: seq<Option<string>>, smallest: bool): (m: string)
    requires exists i :: 0 <= i < |ts| && ts[i].Some?
    ensures exists i :: 0 <= i < |ts| && ts[i] == Some(m)
    ensures forall i :: 0 <= i < |ts| && ts[i].Some? ==> TextBeats(smallest, m, ts[i].value)
  {
    Sorting.LexLeTotalPreorder();
    Sorting.LexGeTotalPreorder();
    var m := if smallest then Sorting.Least(ts, Sorting.LexLe) else Sorting.Least(ts, Sorting.LexGe);
    assert Some(m.value) in ts;
    m.value
  }

  /** `df[column]`: cell `c` of every row. */
  function Column(rows: seq<seq<Cell>>, c: nat): (col: seq<Cell>)
    requires forall row :: row in rows ==> c < |row|
    ensures |col| == |rows| && forall i :: 0 <= i < |rows| ==> col[i] == rows[i][c]
  {
    assert forall i :: 0 <= i < |rows| ==> rows[i] in rows;
    seq(|rows|, i requires 0 <= i < |rows| => rows[i][c])
  }

  /** `df[column].min()` / `.max()` over the kept rows; a missing column raises KeyError. */
  function SizeExtreme(x: Indexed, column: string, smallest: bool): (r: Result<Bound>)
    requires forall row :: row in x.rows ==> |row| == |x.columns|
    ensures column !in x.columns ==> r == Err(KeyError(column))
    ensures column in x.columns ==> r == ColumnExtreme(Column(x.rows, IndexOf(x.columns, column).value), smallest)
  {
    match IndexOf(x.columns, column)
    case None => Err(KeyError(column))
    case Some(c) => ColumnExtreme(Column(x.rows, c), smallest)
  }

  /** `df[labels]`: the named columns of every row, in the order of `labels`. */
  function SelectColumns(x: Indexed, labels: seq<string>): (r: seq<seq<Cell>>)
    requires forall row :: row in x.rows ==> |row| == |x.columns|
    requires forall l :: l in labels ==> l in x.columns
    ensures |r| == |x.rows|
    ensures forall i :: 0 <= i < |r| ==> |r[i]| == |labels|
    ensures forall i, k :: 0 <= i < |r| && 0 <= k < |labels| ==>
              r[i][k] == x.rows[i][IndexOf(x.columns, labels[k]).value]
  {
    seq(|x.rows|, i requires 0 <= i < |x.rows| =>
      assert x.rows[i] in x.rows;
      seq(|labels|, k requires 0 <= k < |labels| => x.rows[i][IndexOf(x.columns, labels[k]).value]))
  }

  // ---------------------------------------------------------------------
  // The record
  // ---------------------------------------------------------------------

  /** What the reader stores in a record, before the header block is merged. */
  datatype Parsed = Parsed(metadata: Metadata, sampleData: Frame, sampleMetadata: Frame, timeZone: Option<string>)

  /** A size bound as the metadata holds it. */
  function BoundValue(b: Bound): (v: MetaValue)
    ensures b.NumberBound? ==> v == Size(b.x)
    ensures b.TextBound? ==> v == Word(b.s)
  {
    match b
    case NumberBound(x) => Size(x)
    case TextBound(s) => Word(s)
  }

  /** The metadata derived from the kept rows, in the order the reader assigns it. */
  function DerivedMetadata(times: seq<Option<int>>, lower: Bound, upper: Bound): (m: Metadata)
    ensures KeysDistinct(m)
    ensures Keys(m) == [StartTimeKey, EndTimeKey, SamplesKey, LowerSizeKey, UpperSizeKey]
    ensures |times| > 0 ==> Lookup(m, StartTimeKey) == Some(Instant(EarliestTime(times)))
    ensures |times| > 0 ==> Lookup(m, EndTimeKey) == Some(Instant(LatestTime(times)))
    ensures |times| == 0 ==> Lookup(m, StartTimeKey) == Some(Size(None)) && Lookup(m, EndTimeKey) == Some(Size(None))
    ensures Lookup(m, SamplesKey) == Some(Count(|times|))
    ensures Lookup(m, LowerSizeKey) == Some(BoundValue(lower)) && Lookup(m, UpperSizeKey) == Some(BoundValue(upper))
  {
    var m := [(StartTimeKey, StartValue(times)),
              (EndTimeKey, EndValue(times)),
              (SamplesKey, Count(|times|)),
              (LowerSizeKey, BoundValue(lower)),
              (UpperSizeKey, BoundValue(upper))];
    assert Keys(m) == [StartTimeKey, EndTimeKey, SamplesKey, LowerSizeKey, UpperSizeKey];
    m
  }

  /** The sampled diameter columns and the size range the rows report. */
  datatype Sizes = Sizes(columns: seq<string>, lower: Bound, upper: Bound)

  /**
   * The diameter labels `cols[start:end]` must all be numbers (else ValueError);
   * the range is the smallest "Lower Size (nm)" and the largest "Upper Size (nm)";
   * the sampled columns are the labels within that range.
   */
  function SampledSizes(x: Indexed, start: nat, end: int, p: Parsers): (r: Result<Sizes>)
    requires forall row :: row in x.rows ==> |row| == |x.columns|
    ensures Diameters(PySlice(x.columns, start, end), p).Err? ==> r == Err(Diameters(PySlice(x.columns, start, end), p).error)
    ensures Diameters(PySlice(x.columns, start, end), p).Ok? && SizeExtreme(x, LowerSizeColumn, true).Err? ==>
              r == Err(SizeExtreme(x, LowerSizeColumn, true).error)
    ensures (Diameters(PySlice(x.columns, start, end), p).Ok? && SizeExtreme(x, LowerSizeColumn, true).Ok?
             && SizeExtreme(x, UpperSizeColumn, false).Err?) ==> r == Err(SizeExtreme(x, UpperSizeColumn, false).error)
    ensures r.Ok? ==> && Diameters(PySlice(x.columns, start, end), p).Ok?
                      && SizeExtreme(x, LowerSizeColumn, true) == Ok(r.value.lower)
                      && SizeExtreme(x, UpperSizeColumn, false) == Ok(r.value.upper)
    ensures r.Ok? <==> && Diameters(PySlice(x.columns, start, end), p).Ok?
                       && SizeExtreme(x, LowerSizeColumn, true).Ok? && SizeExtreme(x, UpperSizeColumn, false).Ok?
                       && Narrow(PySlice(x.columns, start, end), SizeExtreme(x, LowerSizeColumn, true).value,
                                 SizeExtreme(x, UpperSizeColumn, false).value, p).Ok?
    ensures r.Ok? ==> Ok(r.value.columns) == Narrow(PySlice(x.columns, start, end), r.value.lower, r.value.upper, p)
    ensures r.Ok? ==> forall l :: l in r.value.columns ==> l in x.columns
  {
    var labels := PySlice(x.columns, start, end);
    match Diameters(labels, p)
    case Err(e) => Err(e)
    case Ok(_) =>
      match SizeExtreme(x, LowerSizeColumn, true)
      case Err(e) => Err(e)
      case Ok(lower) =>
        match SizeExtreme(x, UpperSizeColumn, false)
        case Err(e) => Err(e)
        case Ok(upper) =>
          match Narrow(labels, lower, upper, p)
          case Err(e) => Err(e)
          case Ok(kept) => Ok(Sizes(kept, lower, upper))
  }

  /**
   * The two tables of a record, both indexed by the parsed dates: the sampled
   * diameter columns, and the columns before the first diameter column but one
   * (`df.iloc[:, 0 : start - 1]`).
   */
  function Tables(x: Indexed, start: nat, kept: seq<string>): (r: (Frame, Frame))
    requires |x.times| == |x.rows|
    requires forall row :: row in x.rows ==> |row| == |x.columns|
    requires forall l :: l in kept ==> l in x.columns
    ensures r.0.Valid() && r.1.Valid()
    ensures r.0.index == x.times && r.1.index == x.times
    ensures r.0.columns == kept && r.1.columns == PySlice(x.columns, 0, start as int - 1)
    ensures r.0.rows == SelectColumns(x, kept)
    ensures |r.1.rows| == |x.rows| && forall i :: 0 <= i < |x.rows| ==> r.1.rows[i] == PySlice(x.rows[i], 0, start as int - 1)
  {
    var sample := Frame(x.times, kept, SelectColumns(x, kept));
    var auxColumns := PySlice(x.columns, 0, start as int - 1);
    var aux := Frame(x.times, auxColumns,
      seq(|x.rows|, i requires 0 <= i < |x.rows| => PySlice(x.rows[i], 0, start as int - 1)));
    assert forall i :: 0 <= i < |x.rows| ==> x.rows[i] in x.rows;
    assert sample.Valid() by {
      forall row | row in sample.rows ensures |row| == |kept| {
        var i :| 0 <= i < |sample.rows| && sample.rows[i] == row;
      }
    }
    assert aux.Valid() by {
      forall row | row in aux.rows ensures |row| == |auxColumns| {
        var i :| 0 <= i < |aux.rows| && aux.rows[i] == row;
        assert |x.rows[i]| == |x.columns|;
      }
    }
    (sample, aux)
  }

  /**
   * What holds of every record the reader fills: both tables are well formed and
   * share the parsed dates as index, the metadata keys are distinct, and the start,
   * end and sample count are those of the index.
   */
  predicate Coherent(q: Parsed)
  {
    && q.sampleData.Valid() && q.sampleMetadata.Valid()
    && q.sampleData.index == q.sampleMetadata.index
    && KeysDistinct(q.metadata)
    && Lookup(q.metadata, StartTimeKey) == Some(StartValue(q.sampleData.index))
    && Lookup(q.metadata, EndTimeKey) == Some(EndValue(q.sampleData.index))
    && Lookup(q.metadata, SamplesKey) == Some(Count(|q.sampleData.rows|))
  }

  /**
   * `q` is the record made of the indexed rows `x` and the sizes they report: the
   * sample table holds the sampled diameter columns of every kept row, the sample
   * metadata table the columns before `start - 1` of every kept row, and the
   * metadata the size range, beside what `Coherent` says.
   */
  predicate Built(x: Indexed, start: nat, s: Sizes, zone: Option<string>, q: Parsed)
    requires forall row :: row in x.rows ==> |row| == |x.columns|
    requires forall l :: l in s.columns ==> l in x.columns
  {
    && Coherent(q) && q.timeZone == zone
    && q.sampleData.index == x.times
    && q.sampleData.columns == s.columns && q.sampleData.rows == SelectColumns(x, s.columns)
    && q.sampleMetadata.columns == PySlice(x.columns, 0, start as int - 1)
    && |q.sampleMetadata.rows| == |x.rows|
    && (forall i :: 0 <= i < |x.rows| ==> q.sampleMetadata.rows[i] == PySlice(x.rows[i], 0, start as int - 1))
    && Keys(q.metadata) == [StartTimeKey, EndTimeKey, SamplesKey, LowerSizeKey, UpperSizeKey]
    && Lookup(q.metadata, LowerSizeKey) == Some(BoundValue(s.lower))
    && Lookup(q.metadata, UpperSizeKey) == Some(BoundValue(s.upper))
  }

  /** The sizes, the two tables and the derived metadata of the indexed rows. */
  function Assemble(x: Indexed, start: nat, end: int, p: Parsers, zone: Option<string>): (r: Result<Parsed>)
    requires |x.times| == |x.rows|
    requires forall row :: row in x.rows ==> |row| == |x.columns|
    ensures SampledSizes(x, start, end, p).Err? ==> r == Err(SampledSizes(x, start, end, p).error)
    ensures r.Ok? ==> SampledSizes(x, start, end, p).Ok?
    ensures r.Ok? ==> Built(x, start, SampledSizes(x, start, end, p).value, zone, r.value)
  {
    match SampledSizes(x, start, end, p)
    case Err(e) => Err(e)
    case Ok(sizes) =>
      var (sample, aux) := Tables(x, start, sizes.columns);
      var m := DerivedMetadata(x.times, sizes.lower, sizes.upper);
      Ok(Parsed(m, sample, aux, zone))
  }

  const DtAccessorMessage: string := "Can only use .dt accessor with datetimelike values"

  /**
   * Everything `_SMPSData_from_csv` computes from the file, except the header
   * merge. With a resolvable zone and no kept row, the date column is still text
   * when it is localised, and `.dt` raises AttributeError.
   */
  function Parse(f: CsvFile, timeZone: Option<string>, p: Parsers, zones: string -> ZoneLookup): (r: Result<Parsed>)
    requires WellFormed(f)
    ensures IndexRows(f, p).Err? ==> r == Err(IndexRows(f, p).error)
    ensures IndexRows(f, p).Ok? && ZoneTag(timeZone, zones).Err? ==> r == Err(ZoneTag(timeZone, zones).error)
    ensures (IndexRows(f, p).Ok? && ZoneTag(timeZone, zones).Ok? && ZoneTag(timeZone, zones).value.Some?
             && |IndexRows(f, p).value.rows| == 0) ==> r == Err(AttributeError(DtAccessorMessage))
    ensures r.Ok? ==> && IndexRows(f, p).Ok? && ZoneTag(timeZone, zones).Ok?
                      && ColumnBounds(f.line52, IndexRows(f, p).value.columns).Ok?
    ensures r.Ok? ==> var x, b := IndexRows(f, p).value, ColumnBounds(f.line52, IndexRows(f, p).value.columns).value;
            && SampledSizes(x, b.0, b.1, p).Ok?
            && Built(x, b.0, SampledSizes(x, b.0, b.1, p).value, ZoneTag(timeZone, zones).value, r.value)
  {
    match IndexRows(f, p)
    case Err(e) => Err(e)
    case Ok(x) =>
      match ZoneTag(timeZone, zones)
      case Err(e) => Err(e)
      case Ok(zone) =>
        if zone.Some? && |x.rows| == 0 then Err(AttributeError(DtAccessorMessage))
        else
          match ColumnBounds(f.line52, x.columns)
          case Err(e) => Err(e)
          case Ok((start, end)) => Assemble(x, start, end, p, zone)
  }

  /** The earliest instant is a parsed instant no later than any other; NaT only when nothing parsed. */
  lemma EarliestTimeSpec(ts: seq<Option<int>>)
    ensures EarliestTime(ts).None? <==> forall i :: 0 <= i < |ts| ==> ts[i].None?
    ensures EarliestTime(ts).Some? ==> Some(EarliestTime(ts).value) in ts
    ensures EarliestTime(ts).Some? ==> forall i :: 0 <= i < |ts| && ts[i].Some? ==> EarliestTime(ts).value <= ts[i].value
    ensures LatestTime(ts).None? <==> forall i :: 0 <= i < |ts| ==> ts[i].None?
    ensures LatestTime(ts).Some? ==> Some(LatestTime(ts).value) in ts
    ensures LatestTime(ts).Some? ==> forall i :: 0 <= i < |ts| && ts[i].Some? ==> ts[i].value <= LatestTime(ts).value
  {
    Sorting.OrdersArePreorders();
  }

  // ---------------------------------------------------------------------
  // Header block
  // ---------------------------------------------------------------------

  /** The key/value pairs of the first 45 lines. */
  function HeaderBlock(f: CsvFile): (b: seq<(string, MetaValue)>)
    ensures |b| <= HeaderLines
  {
    if |f.header| <= HeaderLines then f.header else f.header[..HeaderLines]
  }

  /** `metadata[key] = value` for each pair of the block, in order. */
  function MergeHeader(m: Metadata, block: seq<(string, MetaValue)>): (r: Metadata)
    requires KeysDistinct(m)
    ensures KeysDistinct(r)
  {
    if |block| == 0 then m
    else Assign(MergeHeader(m, block[..|block| - 1]), block[|block| - 1].0, block[|block| - 1].1)
  }

  /** The value the last pair with key `k` carries, if any pair has that key. */
  function LastValue(block: seq<(string, MetaValue)>, k: string): Option<MetaValue>
  {
    if |block| == 0 then None
    else if block[|block| - 1].0 == k then Some(block[|block| - 1].1)
    else LastValue(block[..|block| - 1], k)
  }

  /**
   * After the merge, a key of the block holds the value of its last line (so a
   * header line may overwrite a derived entry); every other key is untouched.
   */
  lemma {:induction false} MergeHeaderLookup(m: Metadata, block: seq<(string, MetaValue)>, k: string)
    requires KeysDistinct(m)
    ensures Lookup(MergeHeader(m, block), k) ==
            (if LastValue(block, k).Some? then LastValue(block, k) else Lookup(m, k))
  {
    if |block| > 0 {
      MergeHeaderLookup(m, block[..|block| - 1], k);
    }
  }

  /** The merge keeps every key where it was and appends new keys after them. */
  lemma {:induction false} MergeHeaderKeepsOrder(m: Metadata, block: seq<(string, MetaValue)>)
    requires KeysDistinct(m)
    ensures |MergeHeader(m, block)| >= |m|
    ensures Keys(MergeHeader(m, block))[..|m|] == Keys(m)
  {
    if |block| > 0 {
      var init := MergeHeader(m, block[..|block| - 1]);
      MergeHeaderKeepsOrder(m, block[..|block| - 1]);
      var r := Assign(init, block[|block| - 1].0, block[|block| - 1].1);
      if block[|block| - 1].0 !in Keys(init) {
        assert Keys(r)[..|m|] == (Keys(init) + [block[|block| - 1].0])[..|m|];
      }
    }
  }

  // ---------------------------------------------------------------------
  // Paths
  // ---------------------------------------------------------------------

  /** `os.path.basename`: the part after the last '/'. */
  function Basename(path: string): (b: string)
    ensures '/' !in b
    ensures |b| <= |path| && path[|path| - |b|..] == b
    ensures |b| < |path| ==> path[|path| - |b| - 1] == '/'
  {
    if |path| == 0 then ""
    else if path[|path| - 1] == '/' then ""
    else Basename(path[..|path| - 1]) + [path[|path| - 1]]
  }

  lemma {:induction false} BasenameOfJoin(dir: string, name: string)
    requires '/' !in name && |dir| > 0 && dir[|dir| - 1] == '/'
    ensures Basename(dir + name) == name
  {
    if |name| > 0 {
      assert (dir + name)[..|dir + name| - 1] == dir + name[..|name| - 1];
      BasenameOfJoin(dir, name[..|name| - 1]);
      assert name == name[..|name| - 1] + [name[|name| - 1]];
    } else {
      assert dir + name == dir;
    }
  }

  /** The directory path with a trailing separator. */
  function WithSeparator(dir: string): (r: string)
    ensures |r| > 0 && r[|r| - 1] == '/'
    ensures |dir| > 0 && dir[|dir| - 1] == '/' ==> r == dir
    ensures !(|dir| > 0 && dir[|dir| - 1] == '/') ==> r == dir + "/"
  {
    if |dir| > 0 && dir[|dir| - 1] == '/' then dir else dir + "/"
  }

  /**
   * The glob pattern `*SMPS*.csv`: "SMPS" somewhere before a final ".csv". A name
   * starting with '.' is hidden from a leading `*`.
   */
  predicate MatchesSmpsCsv(name: string)
  {
    && |name| >= 8
    && name[0] != '.'
    && name[|name| - 4..] == ".csv"
    && exists i :: 0 <= i <= |name| - 8 && SmpsAt(name, i)
  }

  /** "SMPS" starts at position `i` of `name`. */
  predicate SmpsAt(name: string, i: int)
  {
    0 <= i && i + 4 <= |name| && name[i..i + 4] == "SMPS"
  }

  /** The paths glob returns, sorted as strings. */
  function CandidatePaths(dir: string, entries: seq<string>): (r: seq<string>)
  {
    var matching := Filter(entries, MatchesSmpsCsv);
    Sorting.Sort(Map(matching, (name: string) => dir + name), Sorting.LexLe)
  }

  /**
   * The candidates are exactly the matching entries under the directory, each
   * once for each time it is listed, in lexicographic order.
   */
  lemma CandidatePathsSpec(dir: string, entries: seq<string>)
    ensures Sorting.SortedBy(CandidatePaths(dir, entries), Sorting.LexLe)
    ensures multiset(CandidatePaths(dir, entries)) ==
            multiset(Map(Filter(entries, MatchesSmpsCsv), (name: string) => dir + name))
    ensures forall path :: path in CandidatePaths(dir, entries) ==>
              exists name :: name in entries && MatchesSmpsCsv(name) && path == dir + name
  {
    var ps := Map(Filter(entries, MatchesSmpsCsv), (name: string) => dir + name);
    Sorting.LexLeTotalPreorder();
    Sorting.SortSorted(ps, Sorting.LexLe);
    Sorting.SortPermutation(ps, Sorting.LexLe);
    forall path | path in CandidatePaths(dir, entries)
      ensures exists name :: name in entries && MatchesSmpsCsv(name) && path == dir + name
    {
      assert path in multiset(ps);
      var k :| 0 <= k < |ps| && ps[k] == path;
      assert Filter(entries, MatchesSmpsCsv)[k] in Filter(entries, MatchesSmpsCsv);
    }
  }

  // ---------------------------------------------------------------------
  // Building records
  // ---------------------------------------------------------------------

  /** The record fields the reader sets, for a file it could parse. */
  ghost predicate Holds(d: SmpsData, path: string, f: CsvFile, readMetadata: bool, q: Parsed)
    reads d
  {
    && d.filename == Some(Basename(path))
    && d.sampleData == q.sampleData
    && d.sampleMetadata == q.sampleMetadata
    && d.timeZone == q.timeZone
    && d.rawdata.None?
    && KeysDistinct(q.metadata)
    && d.metadata == (if readMetadata then MergeHeader(q.metadata, HeaderBlock(f)) else q.metadata)
  }

  /** `d` is the record the reader builds from the file `f` found at `path`. */
  ghost predicate Loaded(d: SmpsData, path: string, f: CsvFile, readMetadata: bool,
                         timeZone: Option<string>, p: Parsers, zones: string -> ZoneLookup)
    requires WellFormed(f)
    reads d
  {
    var parsed := Parse(f, timeZone, p, zones);
    parsed.Ok? && Holds(d, path, f, readMetadata, parsed.value)
  }

  /** `_SMPSData_from_csv`: a fresh record filled from the file, or the first error raised. */
  method FromCsv(path: string, f: CsvFile, readMetadata: bool, readRawdata: bool,
                 timeZone: Option<string>, p: Parsers, zones: string -> ZoneLookup)
    returns (r: Result<SmpsData>)
    requires WellFormed(f)
    ensures r.Err? <==> Parse(f, timeZone, p, zones).Err?
    ensures r.Err? ==> r.error == Parse(f, timeZone, p, zones).error
    ensures r.Ok? ==> fresh(r.value) && Loaded(r.value, path, f, readMetadata, timeZone, p, zones)
  {
    var parsed := Parse(f, timeZone, p, zones);
    if parsed.Err? {
      return Err(parsed.error);
    }
    var inst := new SmpsData();
    Store(inst, Basename(path), parsed.value);
    if readMetadata {
      MergeInto(inst, HeaderBlock(f));
    }
    // read_rawdata only announces that raw data is not read yet.
    r := Ok(inst);
  }

  /** Sets the file name and the parsed tables, metadata and zone of `inst`. */
  method Store(inst: SmpsData, name: string, q: Parsed)
    modifies inst
    ensures inst.filename == Some(name) && inst.rawdata == old(inst.rawdata)
    ensures inst.metadata == q.metadata && inst.timeZone == q.timeZone
    ensures inst.sampleData == q.sampleData && inst.sampleMetadata == q.sampleMetadata
  {
    inst.filename := Some(name);
    inst.timeZone := q.timeZone;
    inst.metadata := q.metadata;
    inst.sampleData := q.sampleData;
    inst.sampleMetadata := q.sampleMetadata;
  }

  /** `inst.metadata[row[0]] = row[1]` for each line of the header block, in order. */
  method MergeInto(inst: SmpsData, block: seq<(string, MetaValue)>)
    requires KeysDistinct(inst.metadata)
    modifies inst
    ensures inst.metadata == MergeHeader(old(inst.metadata), block)
    ensures inst.sampleData == old(inst.sampleData)
    ensures inst.sampleMetadata == old(inst.sampleMetadata)
    ensures inst.rawdata == old(inst.rawdata)
    ensures inst.filename == old(inst.filename)
    ensures inst.timeZone == old(inst.timeZone)
  {
    ghost var m0 := inst.metadata;
    var i := 0;
    while i < |block|
      invariant 0 <= i <= |block|
      invariant KeysDistinct(inst.metadata)
      invariant inst.metadata == MergeHeader(m0, block[..i])
      invariant inst.sampleData == old(inst.sampleData) && inst.sampleMetadata == old(inst.sampleMetadata)
      invariant inst.rawdata == old(inst.rawdata) && inst.filename == old(inst.filename) && inst.timeZone == old(inst.timeZone)
    {
      assert block[..i + 1][..i] == block[..i];
      assert MergeHeader(m0, block[..i + 1]) == Assign(MergeHeader(m0, block[..i]), block[i].0, block[i].1);
      inst.metadata := Assign(inst.metadata, block[i].0, block[i].1);
      i := i + 1;
    }
    assert block[..i] == block;
  }

  /**
   * `_SMPSData_list_from_dir`: one record per candidate path, in sorted order; the
   * first file that fails to parse aborts the load with its error.
   */
  method ListFromDir(dir: string, entries: seq<string>, read: string -> CsvFile, readMetadata: bool,
                     readRawdata: bool, timeZone: Option<string>, p: Parsers, zones: string -> ZoneLookup)
    returns (r: Result<seq<SmpsData>>)
    requires forall path :: WellFormed(read(path))
    ensures var paths := CandidatePaths(WithSeparator(dir), entries);
            r.Ok? ==> |r.value| == |paths|
    ensures var paths := CandidatePaths(WithSeparator(dir), entries);
            r.Ok? ==> AllLoaded(r.value, paths, read, readMetadata, timeZone, p, zones)
    ensures var paths := CandidatePaths(WithSeparator(dir), entries);
            r.Err? ==> exists i :: FirstFailure(paths, read, timeZone, p, zones, i, r.error)
  {
    var paths := CandidatePaths(WithSeparator(dir), entries);
    r := LoadAll(paths, read, readMetadata, readRawdata, timeZone, p, zones);
  }

  /** `paths[i]` is the first path whose file fails to parse, and it fails with `e`. */
  ghost predicate FirstFailure(paths: seq<string>, read: string -> CsvFile, timeZone: Option<string>,
                               p: Parsers, zones: string -> ZoneLookup, i: int, e: Error)
    requires forall path :: WellFormed(read(path))
  {
    && 0 <= i < |paths|
    && (forall j :: 0 <= j < i ==> Parse(read(paths[j]), timeZone, p, zones).Ok?)
    && Parse(read(paths[i]), timeZone, p, zones) == Err(e)
  }

  /** Each record is the one the reader builds from the path at the same position. */
  ghost predicate AllLoaded(records: seq<SmpsData>, paths: seq<string>, read: string -> CsvFile, readMetadata: bool,
                            timeZone: Option<string>, p: Parsers, zones: string -> ZoneLookup)
    requires forall path :: WellFormed(read(path))
    reads records
  {
    && |records| <= |paths|
    && forall j :: 0 <= j < |records| ==> Loaded(records[j], paths[j], read(paths[j]), readMetadata, timeZone, p, zones)
  }

  /** Appending the record built from the next path keeps the records and paths in step. */
  lemma AllLoadedExtend(records: seq<SmpsData>, one: SmpsData, paths: seq<string>, read: string -> CsvFile,
                        readMetadata: bool, timeZone: Option<string>, p: Parsers, zones: string -> ZoneLookup)
    requires forall path :: WellFormed(read(path))
    requires |records| < |paths|
    requires AllLoaded(records, paths, read, readMetadata, timeZone, p, zones)
    requires Loaded(one, paths[|records|], read(paths[|records|]), readMetadata, timeZone, p, zones)
    ensures AllLoaded(records + [one], paths, read, readMetadata, timeZone, p, zones)
  {
    var rs := records + [one];
    forall j | 0 <= j < |rs|
      ensures Loaded(rs[j], paths[j], read(paths[j]), readMetadata, timeZone, p, zones)
    {
      if j < |records| {
        assert rs[j] == records[j];
      } else {
        assert j == |records| && rs[j] == one;
      }
    }
  }

  /** A path that fails to parse after paths that were all loaded is the first failure. */
  lemma FailureAfterLoaded(records: seq<SmpsData>, paths: seq<string>, read: string -> CsvFile,
                           readMetadata: bool, timeZone: Option<string>, p: Parsers, zones: string -> ZoneLookup, e: Error)
    requires forall path :: WellFormed(read(path))
    requires |records| < |paths|
    requires AllLoaded(records, paths, read, readMetadata, timeZone, p, zones)
    requires Parse(read(paths[|records|]), timeZone, p, zones) == Err(e)
    ensures FirstFailure(paths, read, timeZone, p, zones, |records|, e)
  {
    forall j | 0 <= j < |records|
      ensures Parse(read(paths[j]), timeZone, p, zones).Ok?
    {
      assert Loaded(records[j], paths[j], read(paths[j]), readMetadata, timeZone, p, zones);
    }
  }

  /** The loop of `_SMPSData_list_from_dir`: `_SMPSData_from_csv` on each path in turn. */
  method LoadAll(paths: seq<string>, read: string -> CsvFile, readMetadata: bool,
                 readRawdata: bool, timeZone: Option<string>, p: Parsers, zones: string -> ZoneLookup)
    returns (r: Result<seq<SmpsData>>)
    requires forall path :: WellFormed(read(path))
    ensures r.Ok? ==> |r.value| == |paths|
    ensures r.Ok? ==> AllLoaded(r.value, paths, read, readMetadata, timeZone, p, zones)
    ensures r.Err? ==> exists i :: FirstFailure(paths, read, timeZone, p, zones, i, r.error)
  {
    var records: seq<SmpsData> := [];
    for i := 0 to |paths|
      invariant |records| == i
      invariant AllLoaded(records, paths, read, readMetadata, timeZone, p, zones)
    {
      var next := LoadNext(records, paths, read, readMetadata, readRawdata, timeZone, p, zones);
      if next.Err? {
        return Err(next.error);
      }
      records := next.value;
    }
    r := Ok(records);
  }

  /** One pass of that loop: the record read from the next path joins the list, or its error ends the loop. */
  method LoadNext(records: seq<SmpsData>, paths: seq<string>, read: string -> CsvFile, readMetadata: bool,
                  readRawdata: bool, timeZone: Option<string>, p: Parsers, zones: string -> ZoneLookup)
    returns (r: Result<seq<SmpsData>>)
    requires forall path :: WellFormed(read(path))
    requires |records| < |paths|
    requires AllLoaded(records, paths, read, readMetadata, timeZone, p, zones)
    ensures r.Ok? ==> |r.value| == |records| + 1 && AllLoaded(r.value, paths, read, readMetadata, timeZone, p, zones)
    ensures r.Err? ==> FirstFailure(paths, read, timeZone, p, zones, |records|, r.error)
  {
    var i := |records|;
    var one := FromCsv(paths[i], read(paths[i]), readMetadata, readRawdata, timeZone, p, zones);
    if one.Err? {
      FailureAfterLoaded(records, paths, read, readMetadata, timeZone, p, zones, one.error);
      return Err(one.error);
    }
    AllLoadedExtend(records, one.value, paths, read, readMetadata, timeZone, p, zones);
    r := Ok(records + [one.value]);
  }

  /** `_SMPSDataset_from_SMPSData_list`: a new dataset holding the given records. */
  method DatasetFromList(records: seq<SmpsData>) returns (d: Dataset.SmpsDataset)
    ensures fresh(d) && d.records == records
  {
    d := new Dataset.SmpsDataset();
    d.records := records;
  }
}

=== FILE: smps_data.dfy ===
/**
 * One parsed SMPS export (SMPSData): its tables, its metadata dictionary and
 * the reads `len()` and `print_metadata` make of it.
 */
module SmpsRecord {
  import opened Common

  /** A table cell as pandas reads it: a number, a text, or an empty (NaN) cell. */
  datatype Cell = Num(x: real) | Text(s: string) | Blank

  /**
   * A DataFrame: the row index (instants in microseconds; None is NaT), the column
   * labels and one row of cells per index entry.
   */
  datatype Frame = Frame(index: seq<Option<int>>, columns: seq<string>, rows: seq<seq<Cell>>)
  {
    predicate Valid()
    {
      |rows| == |index| && forall r :: r in rows ==> |r| == |columns|
    }
  }

  const EmptyFrame: Frame := Frame([], [], [])

  /**
   * A metadata value: an instant (None is NaT), a row count, a particle size in nm
   * (None is NaN), a text from the header block, or an empty header cell (NaN).
   */
  datatype MetaValue = Instant(t: Option<int>) | Count(n: int) | Size(x: Option<real>) | Word(s: string) | Missing

  /** Python truthiness of a metadata value. */
  predicate Truthy(v: MetaValue)
  {
    match v
    case Count(n) => n != 0
    case Size(x) => x != Some(0.0)
    case Word(s) => s != ""
    case _ => true
  }

  // ---------------------------------------------------------------------
  // The metadata dictionary: insertion-ordered, one entry per key
  // ---------------------------------------------------------------------

  type Metadata = seq<(string, MetaValue)>

  function Keys(m: Metadata): (ks: seq<string>)
    ensures |ks| == |m| && forall i :: 0 <= i < |m| ==> ks[i] == m[i].0
  {
    seq(|m|, i requires 0 <= i < |m| => m[i].0)
  }

  predicate KeysDistinct(m: Metadata)
  {
    forall i, j :: 0 <= i < j < |m| ==> m[i].0 != m[j].0
  }

  /** `m.get(k)`. */
  function Lookup(m: Metadata, k: string): (r: Option<MetaValue>)
    ensures r.None? <==> k !in Keys(m)
    ensures KeysDistinct(m) ==> forall i :: 0 <= i < |m| && m[i].0 == k ==> r == Some(m[i].1)
  {
    if |m| == 0 then None
    else if m[|m| - 1].0 == k then Some(m[|m| - 1].1)
    else Lookup(m[..|m| - 1], k)
  }

  /**
   * `m[k] = v`: an existing key keeps its place and takes the new value, a new key
   * goes last; nothing else changes.
   */
  function Assign(m: Metadata, k: string, v: MetaValue): (r: Metadata)
    requires KeysDistinct(m)
    ensures KeysDistinct(r)
    ensures Lookup(r, k) == Some(v)
    ensures forall k' :: k' != k ==> Lookup(r, k') == Lookup(m, k')
    ensures k in Keys(m) ==> Keys(r) == Keys(m)
    ensures k !in Keys(m) ==> Keys(r) == Keys(m) + [k]
  {
    match IndexOf(Keys(m), k)
    case None => m + [(k, v)]
    case Some(i) =>
      var r := m[i := (k, v)];
      assert Keys(r) == Keys(m);
      r
  }

  // ---------------------------------------------------------------------
  // print_metadata
  // ---------------------------------------------------------------------

  /** The `keys` argument of print_metadata: None, one string, or a list/tuple of strings. */
  datatype KeySelector = AllKeys | OneKey(key: string) | KeyList(keys: seq<string>)

  /** `if keys:` — None, the empty string and an empty list are falsy. */
  predicate Selects(keys: KeySelector)
  {
    match keys
    case AllKeys => false
    case OneKey(k) => k != ""
    case KeyList(ks) => ks != []
  }

  /** The line printed for one requested key. */
  function KeyLine(m: Metadata, k: string, show: MetaValue -> string): string
  {
    match Lookup(m, k)
    case Some(v) => k + ": " + show(v)
    case None => "Metadata '" + k + "' is not found."
  }

  const SamplesKey: string := "Number of Samples"
  const StartTimeKey: string := "Start Time"
  const EndTimeKey: string := "End Time"

  class SmpsData {
    var metadata: Metadata
    var sampleData: Frame
    var sampleMetadata: Frame
    var rawdata: Option<Frame>
    var filename: Option<string>
    var timeZone: Option<string>

    /**
     * A fresh record: empty metadata and tables, no raw data, file name or zone.
     * Python's `__init__` does not create `time_zone` at all; nothing reads it
     * before the reader assigns it, so None stands in for the missing attribute.
     */
    constructor ()
      ensures metadata == [] && sampleData == EmptyFrame && sampleMetadata == EmptyFrame
      ensures rawdata.None? && filename.None? && timeZone.None?
    {
      metadata := [];
      sampleData := EmptyFrame;
      sampleMetadata := EmptyFrame;
      rawdata := None;
      filename := None;
      timeZone := None;
    }

    /**
     * `len(record)`: `__len__` returns the "Number of Samples" entry when it is
     * truthy and 0 otherwise; `len()` then insists on a non-negative integer.
     */
    function Len(): (r: Result<nat>)
      reads this
      ensures Lookup(metadata, SamplesKey).None? ==> r == Err(KeyError(SamplesKey))
      ensures Lookup(metadata, SamplesKey) == Some(Count(0)) ==> r == Ok(0)
      ensures forall n :: n > 0 && Lookup(metadata, SamplesKey) == Some(Count(n)) ==> r == Ok(n)
      ensures r.Ok? && r.value > 0 ==> Lookup(metadata, SamplesKey) == Some(Count(r.value))
    {
      match Lookup(metadata, SamplesKey)
      case None => Err(KeyError(SamplesKey))
      case Some(v) =>
        if !Truthy(v) then Ok(0)
        else match v
          case Count(n) => if n >= 0 then Ok(n) else Err(ValueError("__len__() should return >= 0"))
          case _ => Err(TypeError("__len__() should return an integer"))
    }

    /** The `k: v` line of every entry, in insertion order. */
    function AllLines(show: MetaValue -> string): (r: seq<string>)
      reads this
      ensures |r| == |metadata|
      ensures forall i :: 0 <= i < |metadata| ==> r[i] == metadata[i].0 + ": " + show(metadata[i].1)
    {
      seq(|metadata|, i requires 0 <= i < |metadata| reads this => metadata[i].0 + ": " + show(metadata[i].1))
    }

    /**
     * The lines print_metadata prints, as written: a non-empty list or tuple of
     * keys reaches `isinstance(keys, <bool>)`, which raises TypeError.
     */
    function MetadataLines(keys: KeySelector, show: MetaValue -> string): (r: Result<seq<string>>)
      reads this
      ensures forall k :: keys == OneKey(k) && k != "" ==> r == Ok([KeyLine(metadata, k, show)])
      ensures !Selects(keys) ==> r.Ok? && |r.value| == |metadata|
      ensures !Selects(keys) ==> forall i :: 0 <= i < |metadata| ==> r.value[i] == metadata[i].0 + ": " + show(metadata[i].1)
      ensures keys.KeyList? && keys.keys != [] ==> r.Err? && r.error.TypeError?
    {
      if !Selects(keys) then Ok(AllLines(show))
      else if keys.OneKey? then Ok([KeyLine(metadata, keys.key, show)])
      else Err(TypeError("isinstance() arg 2 must be a type, a tuple of types, or a union"))
    }

    /** print_metadata as evidently intended: one line per requested key, in the order given. */
    function MetadataLinesIntended(keys: KeySelector, show: MetaValue -> string): (r: seq<string>)
      reads this
      ensures forall k :: keys == OneKey(k) && k != "" ==> r == [KeyLine(metadata, k, show)]
      ensures keys.KeyList? && keys.keys != [] ==> |r| == |keys.keys|
      ensures keys.KeyList? && keys.keys != [] ==> forall i :: 0 <= i < |r| ==> r[i] == KeyLine(metadata, keys.keys[i], show)
      ensures !Selects(keys) ==> r == AllLines(show)
    {
      if !Selects(keys) then AllLines(show)
      else if keys.OneKey? then [KeyLine(metadata, keys.key, show)]
      else seq(|keys.keys|, i requires 0 <= i < |keys.keys| reads this => KeyLine(metadata, keys.keys[i], show))
    }
  }

  /** The written print_metadata and the intended one part ways exactly on non-empty key lists. */
  lemma PrintMetadataListDiscrepancy(d: SmpsData, keys: KeySelector, show: MetaValue -> string)
    ensures d.MetadataLines(keys, show).Err? <==> (keys.KeyList? && keys.keys != [])
    ensures d.MetadataLines(keys, show).Ok? ==> d.MetadataLines(keys, show).value == d.MetadataLinesIntended(keys, show)
  {
  }
}

=== FILE: smps_dataset.dfy ===
/**
 * SMPSDataset: an ordered collection of SMPS records, with indexing, appending,
 * sorting by start time with an overlap scan, and the subtitle its heatmap
 * figure carries.
 */
module Dataset {
  import opened Common
  import opened Calendar
  import opened SmpsRecord
  import Sorting
  import Heatmap

  // ---------------------------------------------------------------------
  // Start and end times of a record
  // ---------------------------------------------------------------------

  /** The instant stored under `key`, None when there is none. */
  function TimeOf(m: Metadata, key: string): (r: Option<int>)
    ensures r.Some? ==> Lookup(m, key) == Some(Instant(r))
    ensures Lookup(m, key).None? ==> r.None?
  {
    match Lookup(m, key)
    case Some(Instant(Some(t))) => Some(t)
    case _ => None
  }

  /**
   * "Start Time" and "End Time", when present, hold instants (not NaT, not another
   * kind of value): the records the model covers, on which a missing time is
   * exactly an absent key.
   */
  predicate TimesParsed(m: Metadata)
  {
    && (Lookup(m, StartTimeKey).Some? ==> TimeOf(m, StartTimeKey).Some?)
    && (Lookup(m, EndTimeKey).Some? ==> TimeOf(m, EndTimeKey).Some?)
  }

  predicate AllParsed(rs: seq<SmpsData>)
    reads rs
  {
    forall k :: 0 <= k < |rs| ==> TimesParsed(rs[k].metadata)
  }

  /** The start and end time of one record; None where the key is absent. */
  datatype Span = Span(start: Option<int>, end: Option<int>)

  function SpanOf(m: Metadata): Span
  {
    Span(TimeOf(m, StartTimeKey), TimeOf(m, EndTimeKey))
  }

  /** The span of each record, in list order. */
  function Spans(rs: seq<SmpsData>): (s: seq<Span>)
    reads rs
    ensures |s| == |rs| && forall k :: 0 <= k < |rs| ==> s[k] == SpanOf(rs[k].metadata)
  {
    seq(|rs|, k requires 0 <= k < |rs| reads rs => SpanOf(rs[k].metadata))
  }

  /** The sort keys `metadata["Start Time"]`; a record without one raises KeyError. */
  function StartKeys(spans: seq<Span>): (r: Result<seq<int>>)
    ensures r.Err? <==> exists k :: 0 <= k < |spans| && spans[k].start.None?
    ensures r.Err? ==> r.error == KeyError(StartTimeKey)
    ensures r.Ok? ==> |r.value| == |spans| && forall k :: 0 <= k < |spans| ==> spans[k].start == Some(r.value[k])
  {
    if |spans| == 0 then Ok([])
    else
      var init := spans[..|spans| - 1];
      assert forall k :: 0 <= k < |init| ==> init[k] == spans[k];
      match (StartKeys(init), spans[|spans| - 1].start)
      case (Err(e), _) => Err(e)
      case (Ok(_), None) => Err(KeyError(StartTimeKey))
      case (Ok(ks), Some(t)) => Ok(ks + [t])
  }

  // ---------------------------------------------------------------------
  // The order list.sort(key=...) produces
  // ---------------------------------------------------------------------

  /** 0, 1, ..., n - 1. */
  function Range(n: nat): (r: seq<nat>)
    ensures |r| == n && forall i :: 0 <= i < n ==> r[i] == i
  {
    seq(n, i requires 0 <= i < n => i)
  }

  /** Each key decorated with its position. */
  function Decorate(keys: seq<int>): (r: seq<Sorting.Keyed>)
    ensures |r| == |keys| && forall i :: 0 <= i < |keys| ==> r[i] == Sorting.Keyed(keys[i], i)
  {
    seq(|keys|, i requires 0 <= i < |keys| => Sorting.Keyed(keys[i], i))
  }

  function Pos(x: Sorting.Keyed): nat { x.pos }

  /** The old position of the element that lands at each place of the stably sorted list. */
  function SortOrder(keys: seq<int>): (ps: seq<nat>)
    ensures |ps| == |keys| && forall k :: 0 <= k < |ps| ==> ps[k] < |keys|
  {
    var sorted := Sorting.Sort(Decorate(keys), Sorting.KeyLe);
    SortedEntries(keys, sorted);
    var ps := Map(sorted, Pos);
    assert forall k :: 0 <= k < |sorted| ==> sorted[k].pos < |keys|;
    assert forall k :: 0 <= k < |ps| ==> ps[k] == Pos(sorted[k]);
    ps
  }

  /** The elements of `s` taken at positions `ps`. */
  function Reorder<T>(s: seq<T>, ps: seq<nat>): (r: seq<T>)
    requires forall k :: 0 <= k < |ps| ==> ps[k] < |s|
    ensures |r| == |ps| && forall k :: 0 <= k < |ps| ==> r[k] == s[ps[k]]
  {
    seq(|ps|, k requires 0 <= k < |ps| => s[ps[k]])
  }

  /** Every element of the sorted decoration is the decoration of its own position. */
  lemma SortedEntries(keys: seq<int>, sorted: seq<Sorting.Keyed>)
    requires sorted == Sorting.Sort(Decorate(keys), Sorting.KeyLe)
    ensures forall k :: 0 <= k < |sorted| ==> sorted[k].pos < |keys| && sorted[k].key == keys[sorted[k].pos]
  {
    var dec := Decorate(keys);
    Sorting.SortPermutation(dec, Sorting.KeyLe);
    forall k | 0 <= k < |sorted|
      ensures sorted[k].pos < |keys| && sorted[k].key == keys[sorted[k].pos]
    {
      assert sorted[k] in multiset(dec);
      var i :| 0 <= i < |dec| && dec[i] == sorted[k];
    }
  }

  /** The order read off the sorted decoration, place by place. */
  lemma SortOrderEntries(keys: seq<int>)
    ensures var sorted := Sorting.Sort(Decorate(keys), Sorting.KeyLe);
            forall k :: 0 <= k < |keys| ==> SortOrder(keys)[k] == sorted[k].pos && sorted[k].key == keys[sorted[k].pos]
  {
    SortedEntries(keys, Sorting.Sort(Decorate(keys), Sorting.KeyLe));
  }

  /** The order is a permutation of the positions 0 .. n - 1. */
  lemma SortOrderPermutation(keys: seq<int>)
    ensures multiset(SortOrder(keys)) == multiset(Range(|keys|))
  {
    var dec := Decorate(keys);
    var sorted := Sorting.Sort(dec, Sorting.KeyLe);
    Sorting.SortPermutation(dec, Sorting.KeyLe);
    MapPreservesMultiset(sorted, dec, Pos);
    assert Map(dec, Pos) == Range(|keys|);
  }

  /** Along the order, the keys never decrease. */
  lemma SortOrderSorted(keys: seq<int>)
    ensures var ps := SortOrder(keys);
            forall i, j :: 0 <= i < j < |ps| ==> keys[ps[i]] <= keys[ps[j]]
  {
    var ps := SortOrder(keys);
    var sorted := Sorting.Sort(Decorate(keys), Sorting.KeyLe);
    Sorting.KeyLeTotalPreorder();
    Sorting.SortSorted(Decorate(keys), Sorting.KeyLe);
    SortOrderEntries(keys);
    forall i, j | 0 <= i < j < |ps|
      ensures keys[ps[i]] <= keys[ps[j]]
    {
      assert Sorting.KeyLe(sorted[i], sorted[j]);
    }
  }

  /** Equal keys keep their original relative order (the sort is stable). */
  lemma SortOrderStable(keys: seq<int>)
    ensures var ps := SortOrder(keys);
            forall i, j :: 0 <= i < j < |ps| && keys[ps[i]] == keys[ps[j]] ==> ps[i] < ps[j]
  {
    var ps := SortOrder(keys);
    var sorted := Sorting.Sort(Decorate(keys), Sorting.KeyLe);
    Sorting.SortStable(Decorate(keys));
    SortOrderEntries(keys);
    forall i, j | 0 <= i < j < |ps| && keys[ps[i]] == keys[ps[j]]
      ensures ps[i] < ps[j]
    {
      assert sorted[i].key == sorted[j].key;
    }
  }

  /** Keys that are already in order are left where they are. */
  lemma SortOrderOfSorted(keys: seq<int>)
    requires forall i, j :: 0 <= i < j < |keys| ==> keys[i] <= keys[j]
    ensures SortOrder(keys) == Range(|keys|)
  {
    var dec := Decorate(keys);
    assert Sorting.SortedBy(dec, Sorting.KeyLe);
    Sorting.SortOfSorted(dec, Sorting.KeyLe);
    assert Map(dec, Pos) == Range(|keys|);
  }

  /** Sorting the already sorted keys a second time changes nothing. */
  lemma SortOrderIdempotent(keys: seq<int>)
    ensures SortOrder(Reorder(keys, SortOrder(keys))) == Range(|keys|)
  {
    SortOrderPermutation(keys);
    SortOrderSorted(keys);
    SortOrderOfSorted(Reorder(keys, SortOrder(keys)));
  }

  /** Taking a list at a permutation of its positions gives the same elements. */
  lemma ReorderPermutes<T>(s: seq<T>, ps: seq<nat>)
    requires multiset(ps) == multiset(Range(|s|))
    requires forall k :: 0 <= k < |ps| ==> ps[k] < |s|
    ensures multiset(Reorder(s, ps)) == multiset(s)
  {
    if |s| > 0 {
      var f := (k: nat) => if k < |s| then s[k] else s[0];
      MapPreservesMultiset(ps, Range(|s|), f);
      assert Map(ps, f) == Reorder(s, ps);
      assert Map(Range(|s|), f) == s;
    } else {
      assert |ps| == |multiset(ps)| == 0;
    }
  }

  // ---------------------------------------------------------------------
  // The overlap scan over adjacent records
  // ---------------------------------------------------------------------

  /** `prev End Time >= curr Start Time`; equal instants count as overlap. */
  predicate OverlapsNext(prev: Span, curr: Span)
  {
    prev.end.Some? && curr.start.Some? && prev.end.value >= curr.start.value
  }

  /** The pair ending at position `i` overlaps. */
  predicate OverlapsAt(spans: seq<Span>, i: int)
  {
    1 <= i < |spans| && OverlapsNext(spans[i - 1], spans[i])
  }

  /** One step of the scan: reading `prev["End Time"]`, then `curr["Start Time"]`, then comparing. */
  function PairCheck(prev: Span, curr: Span): (r: Result<bool>)
    ensures r.Err? <==> prev.end.None? || curr.start.None?
    ensures r.Err? && prev.end.None? ==> r.error == KeyError(EndTimeKey)
    ensures r.Ok? ==> (r.value <==> OverlapsNext(prev, curr))
  {
    match (prev.end, curr.start)
    case (None, _) => Err(KeyError(EndTimeKey))
    case (Some(_), None) => Err(KeyError(StartTimeKey))
    case (Some(e), Some(s)) => Ok(e >= s)
  }

  /** The pairs (i - 1, i), 1 <= i < n, found to overlap; a missing time stops the scan with its KeyError. */
  function Scan(spans: seq<Span>, n: nat): Result<seq<nat>>
    requires n <= |spans|
  {
    if n <= 1 then Ok([])
    else match Scan(spans, n - 1)
      case Err(e) => Err(e)
      case Ok(w) =>
        match PairCheck(spans[n - 2], spans[n - 1])
        case Err(e) => Err(e)
        case Ok(b) => Ok(if b then w + [n - 1] else w)
  }

  /**
   * Over records that all have a start time, the scan fails exactly when the
   * earlier record of some pair lacks its end time, and then with that KeyError.
   */
  lemma {:induction false} ScanFailsOnMissingEnd(spans: seq<Span>, n: nat)
    requires n <= |spans|
    requires forall k :: 0 <= k < |spans| ==> spans[k].start.Some?
    ensures Scan(spans, n).Err? <==> exists i :: 0 <= i < n - 1 && spans[i].end.None?
    ensures Scan(spans, n).Err? ==> Scan(spans, n).error == KeyError(EndTimeKey)
  {
    if n > 1 {
      ScanFailsOnMissingEnd(spans, n - 1);
      if Scan(spans, n - 1).Err? {
        var i :| 0 <= i < n - 2 && spans[i].end.None?;
      } else if spans[n - 2].end.Some? {
        assert forall i :: 0 <= i < n - 1 ==> spans[i].end.Some?;
      }
    }
  }

  /** Once the scan has failed, scanning further pairs keeps the same error. */
  lemma {:induction false} ScanStopsAtError(spans: seq<Span>, m: nat, n: nat)
    requires m <= n <= |spans| && Scan(spans, m).Err?
    ensures Scan(spans, n) == Scan(spans, m)
  {
    if n > m {
      ScanStopsAtError(spans, m, n - 1);
    }
  }

  /** A completed scan reports, in increasing order, exactly the overlapping pairs. */
  lemma {:induction false} ScanReportsOverlaps(spans: seq<Span>, n: nat)
    requires n <= |spans|
    ensures Scan(spans, n).Ok? ==> StrictlyIncreasing(Scan(spans, n).value)
    ensures Scan(spans, n).Ok? ==> forall i :: i in Scan(spans, n).value <==> i < n && OverlapsAt(spans, i)
  {
    if n > 1 && Scan(spans, n).Ok? {
      ScanReportsOverlaps(spans, n - 1);
      var w := Scan(spans, n - 1).value;
      var b := OverlapsAt(spans, n - 1);
      assert Scan(spans, n) == Ok(if b then w + [n - 1] else w);
      assert forall k :: 0 <= k < |w| ==> w[k] in w;
    }
  }

  // ---------------------------------------------------------------------
  // The subtitle of the dataset heatmap
  // ---------------------------------------------------------------------

  function Starts(spans: seq<Span>): (r: seq<Option<int>>)
    ensures |r| == |spans| && forall k :: 0 <= k < |spans| ==> r[k] == spans[k].start
  {
    seq(|spans|, k requires 0 <= k < |spans| => spans[k].start)
  }

  function Ends(spans: seq<Span>): (r: seq<Option<int>>)
    ensures |r| == |spans| && forall k :: 0 <= k < |spans| ==> r[k] == spans[k].end
  {
    seq(|spans|, k requires 0 <= k < |spans| => spans[k].end)
  }

  /** `min` over the records that have a start time. */
  function EarliestStart(spans: seq<Span>): (r: Option<int>)
    ensures r.None? <==> forall k :: 0 <= k < |spans| ==> spans[k].start.None?
    ensures r.Some? ==> exists k :: 0 <= k < |spans| && spans[k].start == r
    ensures r.Some? ==> forall k :: 0 <= k < |spans| && spans[k].start.Some? ==> r.value <= spans[k].start.value
  {
    Sorting.OrdersArePreorders();
    var r := Sorting.Least(Starts(spans), Sorting.IntLe);
    assert r.Some? ==> r in Starts(spans);
    r
  }

  /** `max` over the records that have an end time. */
  function LatestEnd(spans: seq<Span>): (r: Option<int>)
    ensures r.None? <==> forall k :: 0 <= k < |spans| ==> spans[k].end.None?
    ensures r.Some? ==> exists k :: 0 <= k < |spans| && spans[k].end == r
    ensures r.Some? ==> forall k :: 0 <= k < |spans| && spans[k].end.Some? ==> spans[k].end.value <= r.value
  {
    Sorting.OrdersArePreorders();
    var r := Sorting.Least(Ends(spans), Sorting.IntGe);
    assert r.Some? ==> r in Ends(spans);
    r
  }

  /** "Date: d" when both instants have the same `%Y-%m-%d` text, "Date Range: a to b" otherwise. */
  function DateCaption(a: int, b: int): string
  {
    var sa, sb := IsoDate(Day(a)), IsoDate(Day(b));
    if sa == sb then "Date: " + sa else "Date Range: " + sa + " to " + sb
  }

  /** Within years 0..9999, the caption names one date exactly when both instants fall on the same day. */
  lemma DateCaptionSameDay(a: int, b: int)
    requires 0 <= CivilFromDays(Day(a)).year < 10000 && 0 <= CivilFromDays(Day(b)).year < 10000
    ensures Day(a) == Day(b) ==> DateCaption(a, b) == "Date: " + IsoDate(Day(a))
    ensures Day(a) != Day(b) ==> DateCaption(a, b) == "Date Range: " + IsoDate(Day(a)) + " to " + IsoDate(Day(b))
  {
    IsoDateInjective(Day(a), Day(b));
  }

  const EmptyMinMessage: string := "min() arg is an empty sequence"
  const EmptyMaxMessage: string := "max() arg is an empty sequence"

  /**
   * The subtitle without a selector: "All Available Data" for no records, else
   * the caption from the earliest start to the latest end; `min` or `max` of
   * nothing raises ValueError.
   */
  function RecordsCaption(spans: seq<Span>): (r: Result<string>)
    ensures |spans| == 0 ==> r == Ok("All Available Data")
    ensures |spans| > 0 && EarliestStart(spans).None? ==> r == Err(ValueError(EmptyMinMessage))
    ensures |spans| > 0 && EarliestStart(spans).Some? && LatestEnd(spans).None? ==> r == Err(ValueError(EmptyMaxMessage))
    ensures |spans| > 0 && EarliestStart(spans).Some? && LatestEnd(spans).Some? ==>
              r == Ok(DateCaption(EarliestStart(spans).value, LatestEnd(spans).value))
  {
    if |spans| == 0 then Ok("All Available Data")
    else match (EarliestStart(spans), LatestEnd(spans))
      case (None, _) => Err(ValueError(EmptyMinMessage))
      case (Some(_), None) => Err(ValueError(EmptyMaxMessage))
      case (Some(lo), Some(hi)) => Ok(DateCaption(lo, hi))
  }

  /** The caption of a two-item selector: both ends through `pd.to_datetime`, the first failure raised. */
  function RangeCaption(a: Heatmap.When, b: Heatmap.When, parse: string -> Option<int>): (r: Result<string>)
    ensures Heatmap.ToInstant(a, parse).Err? ==> r == Err(Heatmap.ToInstant(a, parse).error)
    ensures Heatmap.ToInstant(a, parse).Ok? && Heatmap.ToInstant(b, parse).Err? ==> r == Err(Heatmap.ToInstant(b, parse).error)
    ensures Heatmap.ToInstant(a, parse).Ok? && Heatmap.ToInstant(b, parse).Ok? ==>
              r == Ok(DateCaption(Heatmap.ToInstant(a, parse).value, Heatmap.ToInstant(b, parse).value))
  {
    match Heatmap.ToInstant(a, parse)
    case Err(e) => Err(e)
    case Ok(x) =>
      match Heatmap.ToInstant(b, parse)
      case Err(e) => Err(e)
      case Ok(y) => Ok(DateCaption(x, y))
  }

  /**
   * The subtitle for a `time_range` selector: a text gives "Date: <text>", a
   * two-item tuple or list gives RangeCaption, no selector gives RecordsCaption,
   * anything else "Date: <str()>".
   */
  function Subtitle(sel: Heatmap.Selector, spans: seq<Span>, parse: string -> Option<int>): (r: Result<string>)
    ensures sel.AllTime? ==> r == RecordsCaption(spans)
    ensures sel.OneDate? && sel.w.Written? ==> r == Ok("Date: " + sel.w.s)
    ensures sel.OneDate? && sel.w.Moment? && sel.w.offset.None? ==> r == Ok("Date: " + StampText(sel.w.t))
    ensures sel.OneDate? && sel.w.Moment? && sel.w.offset.Some? ==>
              r == Ok("Date: " + StampText(sel.w.t) + OffsetText(sel.w.offset.value))
    ensures sel.Items? && |sel.items| == 2 ==> r == RangeCaption(sel.items[0], sel.items[1], parse)
    ensures sel.Items? && |sel.items| != 2 ==> r == Ok("Date: " + sel.shown)
    ensures sel.Other? ==> r == Ok("Date: " + sel.shown)
  {
    match sel
    case AllTime => RecordsCaption(spans)
    case OneDate(Written(s)) => Ok("Date: " + s)
    case OneDate(Moment(t, None)) => Ok("Date: " + StampText(t))
    case OneDate(Moment(t, Some(m))) => Ok("Date: " + StampText(t) + OffsetText(m))
    case Items(items, shown) =>
      if |items| == 2 then RangeCaption(items[0], items[1], parse) else Ok("Date: " + shown)
    case Other(shown) => Ok("Date: " + shown)
  }

  // ---------------------------------------------------------------------
  // The dataset
  // ---------------------------------------------------------------------

  class SmpsDataset {
    var records: seq<SmpsData>

    /** A new dataset holds no records. */
    constructor ()
      ensures records == []
    {
      records := [];
    }

    /** `len(dataset)`: the number of records. */
    function Length(): (n: nat)
      reads this
      ensures n == |records|
    {
      |records|
    }

    /** `dataset[i]`: Python indexing, negative indices counting from the end. */
    function Get(i: int): (r: Result<SmpsData>)
      reads this
      ensures r.Ok? <==> -|records| <= i < |records|
      ensures 0 <= i < |records| ==> r == Ok(records[i])
      ensures -|records| <= i < 0 ==> r == Ok(records[|records| + i])
      ensures r.Err? ==> r.error.IndexError?
    {
      if 0 <= i < |records| then Ok(records[i])
      else if -|records| <= i < 0 then Ok(records[|records| + i])
      else Err(IndexError("list index out of range"))
    }

    /** `add_SMPSData`: appends the record; the earlier records stay as they were. */
    method Add(d: SmpsData)
      modifies this
      ensures records == old(records) + [d]
    {
      records := records + [d];
    }

    /**
     * `sort_by_time`: with two or more records, sorts them stably by start time
     * (a missing start time raises KeyError and leaves the list as it was), then
     * scans adjacent pairs and returns the positions `i` whose pair (i - 1, i)
     * overlaps; a missing end time stops the scan with KeyError after the sort.
     */
    method SortByTime() returns (r: Result<seq<nat>>)
      requires AllParsed(records)
      modifies this
      ensures |old(records)| < 2 ==> records == old(records) && r == Ok([])
      ensures var keys := StartKeys(old(Spans(records)));
              |old(records)| >= 2 && keys.Err? ==> records == old(records) && r == Err(KeyError(StartTimeKey))
      ensures var keys := StartKeys(old(Spans(records)));
              |old(records)| >= 2 && keys.Ok? ==>
                && records == Reorder(old(records), SortOrder(keys.value))
                && multiset(records) == multiset(old(records))
                && Spans(records) == Reorder(old(Spans(records)), SortOrder(keys.value))
                && r == Scan(Spans(records), |records|)
    {
      if |records| < 2 {
        return Ok([]);
      }
      var keys := StartKeys(Spans(records));
      if keys.Err? {
        return Err(keys.error);
      }
      var ps := SortOrder(keys.value);
      SortOrderPermutation(keys.value);
      ReorderPermutes(records, ps);
      ghost var before := Spans(records);
      records := Reorder(records, ps);
      assert Spans(records) == Reorder(before, ps);
      r := ScanOverlaps(records);
    }
  }

  /** The loop of `sort_by_time` that compares each record's end with the next record's start. */
  method ScanOverlaps(rs: seq<SmpsData>) returns (r: Result<seq<nat>>)
    ensures r == Scan(Spans(rs), |rs|)
  {
    var spans := Spans(rs);
    r := ScanSpans(spans);
  }

  /** The same loop over the start and end times already read from the records. */
  method ScanSpans(spans: seq<Span>) returns (r: Result<seq<nat>>)
    ensures r == Scan(spans, |spans|)
  {
    if |spans| <= 1 {
      return Ok([]);
    }
    var overlaps: seq<nat> := [];
    for i := 1 to |spans|
      invariant Scan(spans, i) == Ok(overlaps)
    {
      var step := PairCheck(spans[i - 1], spans[i]);
      assert Scan(spans, i + 1) == if step.Err? then Err(step.error) else Ok(if step.value then overlaps + [i] else overlaps);
      if step.Err? {
        ScanStopsAtError(spans, i + 1, |spans|);
        return Err(step.error);
      }
      if step.value {
        overlaps := overlaps + [i];
      }
    }
    r := Ok(overlaps);
  }

  /** When every record has a start time, the keys are those start times. */
  lemma {:induction false} StartKeysOfPresent(spans: seq<Span>, ks: seq<int>)
    requires |ks| == |spans| && forall k :: 0 <= k < |spans| ==> spans[k].start == Some(ks[k])
    ensures StartKeys(spans) == Ok(ks)
  {
    if |spans| > 0 {
      var m := |spans| - 1;
      StartKeysOfPresent(spans[..m], ks[..m]);
      assert ks == ks[..m] + [ks[m]];
    }
  }

  /** Reordering the records reorders their start keys the same way. */
  lemma StartKeysOfReorder(spans: seq<Span>, keys: seq<int>, ps: seq<nat>)
    requires StartKeys(spans) == Ok(keys)
    requires forall k :: 0 <= k < |ps| ==> ps[k] < |spans|
    ensures StartKeys(Reorder(spans, ps)) == Ok(Reorder(keys, ps))
  {
    StartKeysOfPresent(Reorder(spans, ps), Reorder(keys, ps));
  }

  /** After a successful sort the start times never decrease, and sorting again keeps the order. */
  lemma SortedStartsStay(spans: seq<Span>)
    requires StartKeys(spans).Ok?
    ensures var keys := StartKeys(spans).value;
            var sorted := Reorder(spans, SortOrder(keys));
            && StartKeys(sorted) == Ok(Reorder(keys, SortOrder(keys)))
            && (forall i, j :: 0 <= i < j < |sorted| ==> StartKeys(sorted).value[i] <= StartKeys(sorted).value[j])
            && SortOrder(StartKeys(sorted).value) == Range(|spans|)
  {
    var keys := StartKeys(spans).value;
    StartKeysOfReorder(spans, keys, SortOrder(keys));
    SortOrderSorted(keys);
    SortOrderIdempotent(keys);
  }
}

=== FILE: sorting.dfy ===
/**
 * The ordering Python's `list.sort` produces: a stable sort by a total preorder,
 * written as insertion sort. Used for the directory listing (strings, by code
 * point) and for records keyed by their start time.
 */
module Sorting {
  import opened Common

  ghost predicate TotalPreorder<T(!new)>(le: (T, T) -> bool)
  {
    && (forall a, b :: le(a, b) || le(b, a))
    && (forall a, b, c :: le(a, b) && le(b, c) ==> le(a, c))
  }

  predicate SortedBy<T>(s: seq<T>, le: (T, T) -> bool)
  {
    forall i, j :: 0 <= i < j < |s| ==> le(s[i], s[j])
  }

  /** Inserts `x` into sorted `s` after every element that is not greater than `x`. */
  function Insert<T>(x: T, s: seq<T>, le: (T, T) -> bool): (r: seq<T>)
    ensures |r| == |s| + 1
    ensures multiset(r) == multiset(s) + multiset{x}
  {
    if |s| == 0 then [x]
    else
      assert s == [s[0]] + s[1..];
      if le(s[0], x) then [s[0]] + Insert(x, s[1..], le) else [x] + s
  }

  /** Every element of an insertion result is the inserted one or came from `s`. */
  lemma InsertMember<T>(x: T, s: seq<T>, le: (T, T) -> bool, y: T)
    requires y in Insert(x, s, le)
    ensures y == x || exists k :: 0 <= k < |s| && s[k] == y
  {
    assert y in multiset(Insert(x, s, le));
  }

  /** Insertion sort: each element, taken in order, goes after the equal ones already placed. */
  function Sort<T>(s: seq<T>, le: (T, T) -> bool): (r: seq<T>)
    ensures |r| == |s|
  {
    if |s| == 0 then []
    else Insert(s[|s| - 1], Sort(s[..|s| - 1], le), le)
  }

  /** Sorting only reorders: the result is a permutation of the input. */
  lemma {:induction false} SortPermutation<T>(s: seq<T>, le: (T, T) -> bool)
    ensures multiset(Sort(s, le)) == multiset(s)
  {
    if |s| > 0 {
      SortPermutation(s[..|s| - 1], le);
      assert s == s[..|s| - 1] + [s[|s| - 1]];
    }
  }

  lemma {:induction false} InsertSorted<T(!new)>(x: T, s: seq<T>, le: (T, T) -> bool)
    requires TotalPreorder(le) && SortedBy(s, le)
    ensures SortedBy(Insert(x, s, le), le)
  {
    if |s| > 0 && le(s[0], x) {
      var rest := Insert(x, s[1..], le);
      InsertSorted(x, s[1..], le);
      forall y | y in rest
        ensures le(s[0], y)
      {
        assert y in multiset(rest);
        if y != x {
          assert y in multiset(s[1..]);
          var k :| 0 <= k < |s[1..]| && s[1..][k] == y;
          assert s[k + 1] == y;
        }
      }
    }
  }

  /** Under a total preorder the result is ordered. */
  lemma {:induction false} SortSorted<T(!new)>(s: seq<T>, le: (T, T) -> bool)
    requires TotalPreorder(le)
    ensures SortedBy(Sort(s, le), le)
  {
    if |s| > 0 {
      SortSorted(s[..|s| - 1], le);
      InsertSorted(s[|s| - 1], Sort(s[..|s| - 1], le), le);
    }
  }

  lemma {:induction false} InsertAtEnd<T>(x: T, s: seq<T>, le: (T, T) -> bool)
    requires forall k :: 0 <= k < |s| ==> le(s[k], x)
    ensures Insert(x, s, le) == s + [x]
  {
    if |s| > 0 {
      InsertAtEnd(x, s[1..], le);
    }
  }

  /** A sequence that is already ordered comes back unchanged. */
  lemma {:induction false} SortOfSorted<T>(s: seq<T>, le: (T, T) -> bool)
    requires SortedBy(s, le)
    ensures Sort(s, le) == s
  {
    if |s| > 0 {
      var init := s[..|s| - 1];
      SortOfSorted(init, le);
      InsertAtEnd(s[|s| - 1], init, le);
    }
  }

  // ---------------------------------------------------------------------
  // Sorting by an integer key, decorated with the original position
  // ---------------------------------------------------------------------

  /** A sort key and the position its element had before sorting. */
  datatype Keyed = Keyed(key: int, pos: nat)

  function KeyLe(a: Keyed, b: Keyed): bool { a.key <= b.key }

  lemma KeyLeTotalPreorder()
    ensures TotalPreorder(KeyLe)
  {
  }

  /** Equal keys appear in increasing order of original position. */
  predicate Stable(s: seq<Keyed>)
  {
    forall i, j :: 0 <= i < j < |s| && s[i].key == s[j].key ==> s[i].pos < s[j].pos
  }

  /** Putting an entry in front keeps the order stable when it comes from before every entry with its key. */
  lemma StableCons(a: Keyed, t: seq<Keyed>)
    requires Stable(t)
    requires forall y :: y in t && y.key == a.key ==> a.pos < y.pos
    ensures Stable([a] + t)
  {
    var r := [a] + t;
    forall i, j | 0 <= i < j < |r| && r[i].key == r[j].key
      ensures r[i].pos < r[j].pos
    {
      if i == 0 {
        assert r[j] == t[j - 1];
      } else {
        assert r[i] == t[i - 1] && r[j] == t[j - 1];
      }
    }
  }

  lemma TailSortedStable(s: seq<Keyed>)
    requires |s| > 0 && SortedBy(s, KeyLe) && Stable(s)
    ensures SortedBy(s[1..], KeyLe) && Stable(s[1..])
  {
    var t := s[1..];
    forall i, j | 0 <= i < j < |t|
      ensures KeyLe(t[i], t[j]) && (t[i].key == t[j].key ==> t[i].pos < t[j].pos)
    {
      assert t[i] == s[i + 1] && t[j] == s[j + 1];
    }
  }

  /** An entry from before the inserted one, and before every later entry with its key, precedes them all. */
  lemma HeadFirst(x: Keyed, s: seq<Keyed>)
    requires |s| > 0 && Stable(s)
    requires forall y :: y in s ==> y.pos < x.pos
    ensures forall y :: y in Insert(x, s[1..], KeyLe) && y.key == s[0].key ==> s[0].pos < y.pos
  {
    var t := s[1..];
    forall y | y in Insert(x, t, KeyLe) && y.key == s[0].key
      ensures s[0].pos < y.pos
    {
      InsertMember(x, t, KeyLe, y);
      if y != x {
        var k :| 0 <= k < |t| && t[k] == y;
        assert s[k + 1] == y;
      }
    }
  }

  /** An entry with a smaller key than every entry of a sorted sequence shares its key with none of them. */
  lemma SmallerInFront(x: Keyed, s: seq<Keyed>)
    requires |s| > 0 && SortedBy(s, KeyLe) && Stable(s) && !KeyLe(s[0], x)
    ensures Stable([x] + s)
  {
    forall y | y in s
      ensures y.key != x.key
    {
      var k :| 0 <= k < |s| && s[k] == y;
      assert k == 0 || KeyLe(s[0], s[k]);
    }
    StableCons(x, s);
  }

  lemma {:induction false} InsertStable(x: Keyed, s: seq<Keyed>)
    requires SortedBy(s, KeyLe) && Stable(s)
    requires forall y :: y in s ==> y.pos < x.pos
    ensures Stable(Insert(x, s, KeyLe))
  {
    if |s| > 0 {
      var t := s[1..];
      assert s == [s[0]] + t;
      if KeyLe(s[0], x) {
        TailSortedStable(s);
        InsertStable(x, t);
        HeadFirst(x, s);
        StableCons(s[0], Insert(x, t, KeyLe));
        assert [s[0]] + Insert(x, t, KeyLe) == Insert(x, s, KeyLe);
      } else {
        SmallerInFront(x, s);
        assert [x] + s == Insert(x, s, KeyLe);
      }
    }
  }

  /**
   * Sorting positions-decorated keys is stable: when the positions were increasing
   * before the sort, entries with equal keys keep their relative order.
   */
  lemma {:induction false} SortStable(s: seq<Keyed>)
    requires forall i, j :: 0 <= i < j < |s| ==> s[i].pos < s[j].pos
    ensures Stable(Sort(s, KeyLe))
  {
    if |s| > 0 {
      var init, x := s[..|s| - 1], s[|s| - 1];
      SortStable(init);
      KeyLeTotalPreorder();
      SortSorted(init, KeyLe);
      SortPermutation(init, KeyLe);
      forall y | y in Sort(init, KeyLe)
        ensures y.pos < x.pos
      {
        assert y in multiset(Sort(init, KeyLe));
        assert y in multiset(init);
      }
      InsertStable(x, Sort(init, KeyLe));
    }
  }

  // ---------------------------------------------------------------------
  // Python's string order: lexicographic by code point
  // ---------------------------------------------------------------------

  predicate LexLe(a: string, b: string)
  {
    |a| == 0 || (|b| > 0 && (a[0] < b[0] || (a[0] == b[0] && LexLe(a[1..], b[1..]))))
  }

  lemma {:induction false} LexTotal(a: string, b: string)
    ensures LexLe(a, b) || LexLe(b, a)
  {
    if |a| > 0 && |b| > 0 && a[0] == b[0] {
      LexTotal(a[1..], b[1..]);
    }
  }

  lemma {:induction false} LexTransitive(a: string, b: string, c: string)
    requires LexLe(a, b) && LexLe(b, c)
    ensures LexLe(a, c)
  {
    if |a| > 0 && a[0] == b[0] && b[0] == c[0] {
      LexTransitive(a[1..], b[1..], c[1..]);
    }
  }

  lemma LexLeTotalPreorder()
    ensures TotalPreorder(LexLe)
  {
    forall a, b
      ensures LexLe(a, b) || LexLe(b, a)
    {
      LexTotal(a, b);
    }
    forall a, b, c | LexLe(a, b) && LexLe(b, c)
      ensures LexLe(a, c)
    {
      LexTransitive(a, b, c);
    }
  }

  /** The reverse order, for the greatest string. */
  predicate LexGe(a: string, b: string)
  {
    LexLe(b, a)
  }

  lemma LexGeTotalPreorder()
    ensures TotalPreorder(LexGe)
  {
    LexLeTotalPreorder();
  }

  // ---------------------------------------------------------------------
  // Least and greatest present values (pandas min/max skip NaN and NaT)
  // ---------------------------------------------------------------------

  /** The least present value under `le` (pandas' `min`, which skips missing values); None when none is present. */
  function Least<T(!new)>(xs: seq<Option<T>>, le: (T, T) -> bool): (r: Option<T>)
    requires TotalPreorder(le)
    ensures r.None? <==> forall i :: 0 <= i < |xs| ==> xs[i].None?
    ensures r.Some? ==> Some(r.value) in xs
    ensures r.Some? ==> forall i :: 0 <= i < |xs| && xs[i].Some? ==> le(r.value, xs[i].value)
  {
    if |xs| == 0 then None
    else
      var init := Least(xs[..|xs| - 1], le);
      assert forall i :: 0 <= i < |xs| - 1 ==> xs[i] == xs[..|xs| - 1][i];
      match (init, xs[|xs| - 1])
      case (None, last) => last
      case (Some(a), None) => Some(a)
      case (Some(a), Some(b)) => if le(a, b) then Some(a) else Some(b)
  }

  function IntLe(a: int, b: int): bool { a <= b }
  function IntGe(a: int, b: int): bool { a >= b }
  function RealLe(a: real, b: real): bool { a <= b }
  function RealGe(a: real, b: real): bool { a >= b }

  lemma OrdersArePreorders()
    ensures TotalPreorder(IntLe) && TotalPreorder(IntGe)
    ensures TotalPreorder(RealLe) && TotalPreorder(RealGe)
  {
  }
}
